=== FILE: README.md ===
# howlongtobeat-api parsers, modelled in Dafny

`howlongtobeat-api` reads two kinds of page from the HowLongToBeat site:
- a page of search results, which it turns into a total and one summary record per game;
- a game's detail page, which it turns into one detail record.

It also encodes a search query as a form body. The code doing this sits in `lib/parsers.ts`. The records, the table field lists and the query enumerations it uses sit in `lib/types.ts`. This project models that code and proves what it does.

The model has one module per concern:

| module | file | models |
|---|---|---|
| `Wrappers` | wrappers.dfy | `Option` and `Result` |
| `JsString` | jsstring.dfy | the JavaScript string builtins the parsers call, over `seq<char>`: `split`, `trim`, `replace` (first occurrence), `toLowerCase`, `\s` removal, `parseInt`, `x \|\| y` on strings |
| `Types` | types.dfy | records, the five field lists, the enumeration defaults the encoder falls back on |
| `Markup` | markup.dfy | elements as the selectors return them (absent, or present with an optional attribute), the id of a link and the absolute image address |
| `Overwrites` | overwrites.dfy | keyed assignment in order, later assignments winning (`obj[k] = v` in a loop, `Object.assign`) |
| `Selections` | selections.dfy | `.each` over a selection: callbacks in document order, the first throw ending the call |
| `Durations` | durations.dfy | `parseTotalResults` and `parseRelativeTimes`, the regular expressions written as hand-made matchers |
| `Tables` | tables.dfy | `parseTableTimes` |
| `FormEncoding` | formencoding.dfy | the `application/x-www-form-urlencoded` serializer of the WHATWG URL Standard (section 5.2), and the matching parser as its partner |
| `Queries` | queries.dfy | `parseQuery` |
| `Results` | results.dfy | `parseGameResults` |
| `Detail` | detail.dfy | `parseGameDetail` |

The HTML library is not modelled. A page is a datatype holding what each selector returns: texts, and the first matched element with the one attribute that is read. A read that dereferences `undefined` throws in the source, and the model returns a `Failure` naming it. Durations are exact `real` hours. `parseInt` returns `Option<int>`, where `None` stands for `NaN`.

The model follows the code as written, including these behaviours a caller may not expect:
- **Unrecognised table names** (`lib/parsers.ts:55-56,60-85,95`). They are not dropped. They give the key `unknown`, with one empty record per row.
- **Missing parts of a search entry** (`lib/parsers.ts:133-148`). The call throws when an entry has no title link `href` or no thumbnail image. Nothing degrades to a default.
- **Missing parts of a detail page** (`lib/parsers.ts:191-198,208,213-220`). The call throws when the navigation link, its `href` or the game image is missing, and when a stats item has a single word.
- **Ids** (`lib/parsers.ts:133-140,191-198`). An id can be `NaN`, or negative, because `parseInt` accepts a sign and hexadecimal.
- **Ratios** (`lib/parsers.ts:218`). They are not confined to [0, 1]: `150%` reads as 1.5.
- **Publishers** (`lib/parsers.ts:250`). The code stores them as one string under `publisher`, not as a list under the `publishers` that `lib/types.ts:33` declares.

## Model

| member | source | states |
|---|---|---|
| JsString.IndexOf | lib/parsers.ts:206 | the first occurrence of the pattern at or after `from`; none before it; `None` only when there is none at all |
| JsString.IndexOfFirst | lib/parsers.ts:206 | an occurrence with none before it is the one `IndexOf` finds |
| JsString.SplitWithout | lib/parsers.ts:138 | a character is found only where it occurs, so text without the separator splits into itself alone |
| JsString.ReplaceFirst | lib/parsers.ts:206 | `replace` with a string pattern: text without the pattern is unchanged; otherwise the first occurrence is replaced, giving the text before it, the replacement and the text after it |
| JsString.Split | lib/parsers.ts:138 | `split` with a non-empty separator always gives at least one piece |
| JsString.JoinSplit | lib/parsers.ts:241 | joining the pieces of a split with the separator gives back the text |
| JsString.SplitJoin | lib/parsers.ts:241 | pieces free of a one-character separator split back out of their join |
| JsString.SplitPiecesAreFree | lib/parsers.ts:216 | no piece of a split contains the separator |
| JsString.LastPieceAfter | lib/parsers.ts:138-139 | `split(c).pop()` of a text ending in `c` and then `c`-free text is that text |
| JsString.TrimStart | lib/parsers.ts:144 | the result is no longer than the text and starts with no white space, and everything removed was white space |
| JsString.TrimStartSuffix | lib/parsers.ts:144 | the trimmed text is the original's suffix of its own length |
| JsString.TrimEnd | lib/parsers.ts:144 | the result is a prefix that ends with no white space, and everything removed was white space |
| JsString.Trim | lib/parsers.ts:144 | `trim()` leaves neither leading nor trailing white space |
| JsString.TrimOfTrimmed | lib/parsers.ts:144 | `trim` leaves a text without edge white space unchanged (so trimming twice is trimming once) |
| JsString.RemoveSpaces | lib/parsers.ts:40 | `replace(/(\s\|\t\|\n)+/g, '')` leaves no white space and never lengthens the text |
| JsString.RemoveSpacesAppend | lib/parsers.ts:40 | removing white space distributes over concatenation |
| JsString.RemoveSpacesNoop | lib/parsers.ts:40 | text without white space is left unchanged |
| JsString.DigitOf | lib/parsers.ts:133-140 | a digit's value is below 36, and below 10 exactly for `0`-`9` |
| JsString.DigitOfChar | lib/parsers.ts:133-140 | digit values are one-to-one: the digit character of each value below 36 reads as that value, and a digit character is, lower-cased, the digit character of its value |
| JsString.DigitSpan | lib/parsers.ts:133-140 | the longest run of digits at the front: all digits, and the next character is not one |
| JsString.NatToDigits | lib/parsers.ts:103 | the decimal numeral of a number is non-empty and all digits |
| JsString.NatToDigitsValue | lib/parsers.ts:103 | reading a numeral's digits gives back the number |
| JsString.NumeralLeadingDigit | lib/parsers.ts:103 | a numeral starts with `0` exactly for 0, whose numeral is `"0"` |
| JsString.DigitSpanOfDigitsThen | lib/parsers.ts:133-140 | the digit run of digits followed by a non-digit is exactly those digits |
| JsString.ParseIntOfDecimal | lib/parsers.ts:133-140 | `parseInt` of text that starts with a decimal digit and is not `0x…` reads the leading decimal run |
| JsString.ParseIntOfNumeralThen | lib/parsers.ts:133-140 | `parseInt` of a numeral followed by a non-digit (and no `x` after a lone `0`) is that number |
| JsString.ParseIntOfNumeral | lib/parsers.ts:133-140 | `parseInt` of a numeral is its number |
| JsString.ParseInt | lib/parsers.ts:133-140 | `parseInt` of blank text is `NaN`; a negative result needs a leading `-` after the white space, and a leading `-` never gives a positive result |
| Types.FieldListsDistinct | lib/types.ts:49-90 | no field list names a field twice |
| Types.SortOrder.Value | lib/types.ts:134-137 | the sort direction's number is 0 exactly for `Descending`, and at most 1 |
| Markup.IdOfHrefNumeral | lib/parsers.ts:133-140 | a link ending in `=<n>` carries the id `n` |
| Markup.IdOfHrefEmpty | lib/parsers.ts:133-140 | a link ending in a bare `=` falls back to `'0'`, the id 0 |
| Markup.IdOfHref | lib/parsers.ts:133-140 | a link without `=` is read whole by `parseInt`, and an empty link falls back to `'0'`, the id 0 |
| Markup.ImageUrl | lib/parsers.ts:176 | the image address is empty exactly when `src` is missing or empty; otherwise it is the base address followed by `src` |
| Overwrites.LastWinsStep | lib/parsers.ts:290 | one more keyed assignment keeps "every assigned key present, holding its last value" |
| Overwrites.LastWinsKeys | lib/parsers.ts:290 | after keyed assignments, a key is present exactly when some assignment used it |
| Overwrites.LastWinsValue | lib/parsers.ts:290 | a present key holds a value that was assigned to it |
| Selections.CollectEach | lib/parsers.ts:132-179 | `.each` pushing one value per element: it succeeds exactly when no callback throws, giving the values in element order; otherwise it gives what the first throwing callback threw |
| Selections.AssignEach | lib/parsers.ts:212-222 | `.each` assigning a key per element: it succeeds exactly when no callback throws, and the object holds the last value of every key; otherwise it gives the first throw |
| Durations.Leftmost | lib/parsers.ts:34 | a non-global `exec`: the match position has a match, no earlier position has one, and `None` only when no position has one |
| Durations.ParseTotalResults | lib/parsers.ts:33-36 | no `We Found N Games` anywhere gives 0 |
| Durations.TotalAt | lib/parsers.ts:26 | a match starts with `we found ` in any case and holds at least one digit where the count begins |
| Durations.LeftmostIs | lib/parsers.ts:34 | the first position where the pattern matches is the one `exec` reports |
| Durations.TotalOfDigits | lib/parsers.ts:26 | `we found <n> games`, in any letter case and followed by anything, matches with the count `n` |
| Durations.NoTotalAt | lib/parsers.ts:26 | no match starts at a character other than `w`/`W` |
| Durations.NoTotalWithoutW | lib/parsers.ts:26 | text holding no `w`/`W` holds no start of a `We Found N Games` match |
| Durations.TotalAfter | lib/parsers.ts:33-36 | the first match is the total: a match found after text in which no match starts gives its count |
| Durations.ParseTotalOfAnnouncement | lib/parsers.ts:33-36 | a heading announcing `We Found <n> Games`, after text in which no match starts, gives the total `n` |
| Durations.LabelAt | lib/parsers.ts:27-30 | a label is found at the front exactly when one of the alternatives starts the text (ignoring case); its length fits the text |
| Durations.HoursAt | lib/parsers.ts:27-30 | an hours fragment starts with a digit, is worth a non-negative number of hours, and leaves a suffix of the text at least six characters shorter |
| Durations.MinsAt | lib/parsers.ts:27-30 | a minutes fragment starts with a digit and is at least five characters long |
| Durations.AfterLabel | lib/parsers.ts:40-43 | the text after the leftmost label is a proper suffix of the text |
| Durations.ReadDuration | lib/parsers.ts:44-51 | the duration read after a label is never negative |
| Durations.ParseRelativeTimes | lib/parsers.ts:38-52 | a play-mode duration is never negative |
| Durations.HoursOfDigits | lib/parsers.ts:27-30 | `<digits>½?hours`, in any case, reads as the digits' value plus ½ when marked, leaving what follows |
| Durations.HoursOfFragment | lib/parsers.ts:47-49 | `<h>½?Hours` reads as `h`, plus 0.5 when `½` is present |
| Durations.MinsOfFragment | lib/parsers.ts:50 | `<m>Mins` reads as `m` minutes |
| Durations.NoHoursBeforeMins | lib/parsers.ts:27-30 | a minutes fragment is not taken for an hours fragment |
| Durations.NoFragmentWithoutDigit | lib/parsers.ts:27-30 | text that does not start with a digit has neither fragment |
| Durations.RemoveSpacesOfFragment | lib/parsers.ts:40 | removing white space leaves a label-and-fragments run intact |
| Durations.DisplayLabelFound | lib/parsers.ts:27-30 | every label as the site writes it is matched by its mode's pattern at the start of the text, with its own length |
| Durations.NoLabelStartIn | lib/parsers.ts:27-30 | text none of whose characters can begin a label of the mode holds no label of the mode |
| Durations.LabelAfter | lib/parsers.ts:40-43 | the first label in the text is the one read, and reading continues right after it |
| Durations.ReadFragments | lib/parsers.ts:44-51 | the fragments after a label read back as hours + ½ + minutes/60 |
| Durations.HoursOfText | lib/parsers.ts:47-49 | a written `<h>½?Hours` reads back as its value, leaving the text after it |
| Durations.ParseFragment | lib/parsers.ts:38-52 | text in which no label of the mode starts (a game title, say), then a label, then `<h>½?Hours` and/or `<m>Mins`, gives exactly H + ½ + M/60, whatever comes after (later labels included) |
| Durations.NoLabelNoDuration | lib/parsers.ts:42-51 | without the mode's label anywhere the duration is 0 |
| Durations.EightAndAHalfHours | lib/parsers.ts:27 | the spaced text `Portal Main Story 8½ Hours` gives 8.5 for Main: the title in front is skipped; the text after it may be anything that does not start with a digit, since a number there would be read as minutes |
| Durations.ThirtyMinutes | lib/parsers.ts:30 | the spaced text `Vs. 30 Mins` gives 0.5 for Multi, whatever follows |
| Durations.SpacesIgnored | lib/parsers.ts:40 | the duration of a text equals the duration of the text with its white space removed |
| Durations.SpaceDropped | lib/parsers.ts:40 | a space between two texts disappears along with the white space inside them |
| Tables.SchemaKinds | lib/parsers.ts:60-85 | the six names map one-to-one onto the six declared table kinds; every other name gives `unknown` and no fields. `Additional Content` and `Main Game` share one field list. Each list is duplicate-free, has 6 or 7 fields with `polled` at index 1, and starts with `type`, `name` or `platform` |
| Tables.Schema | lib/parsers.ts:55-85 | the key is `unknown` exactly for a name outside the six, and the field list is empty exactly then |
| Tables.ZipRowMeaning | lib/parsers.ts:88-94 | a row's record holds exactly the fields whose cell is not `--`, each bound to its own cell (`undefined` past the end of a short row); cells past the field list are ignored |
| Tables.Records | lib/parsers.ts:88-94 | one record per row |
| Tables.ParseTableTimes | lib/parsers.ts:54-96 | a one-key map from the table's kind to one record per row, in row order, each record holding just the non-`--` fields bound to their cells |
| FormEncoding.Utf8 | lib/parsers.ts:113 | a character's UTF-8 encoding is 1 to 4 bytes |
| FormEncoding.Utf8Char | lib/parsers.ts:113 | a character's bytes form a well-formed UTF-8 sequence that carries its code point |
| FormEncoding.Utf8RoundTrip | lib/parsers.ts:113 | UTF-8 decoding undoes UTF-8 encoding |
| FormEncoding.PercentByte | lib/parsers.ts:113 | a percent-encoded byte is `%` and two more characters |
| FormEncoding.PercentBytes | lib/parsers.ts:113 | each byte becomes three characters |
| FormEncoding.EncodeChar | lib/parsers.ts:113 | a character is sent as one character exactly when it is unreserved or a space; otherwise as 3 to 12 characters starting with `%` |
| FormEncoding.Encode | lib/parsers.ts:113 | serialized text is at least as long as the text and at most twelve times as long |
| FormEncoding.EncodeAlphabet | lib/parsers.ts:113 | serialized text holds only unreserved characters, `+` and `%`, so never `&` or `=` |
| FormEncoding.EncodeUnreserved | lib/parsers.ts:113 | text made of ASCII alphanumerics and `*-._` serializes to itself |
| FormEncoding.EncodeAppend | lib/parsers.ts:113 | serializing distributes over concatenation |
| FormEncoding.PercentDecodeEncode | lib/parsers.ts:113 | percent-decoding serialized text gives the UTF-8 bytes of the original |
| FormEncoding.DecodeEncode | lib/parsers.ts:113 | decoding undoes serializing |
| FormEncoding.ParsePairEncoded | lib/parsers.ts:113 | a serialized pair is non-empty and parses back into the pair |
| FormEncoding.Serialize | lib/parsers.ts:113 | the serialized list is empty exactly when there are no pairs |
| FormEncoding.SerializedPieces | lib/parsers.ts:113 | splitting a serialized list on `&` gives one serialized pair per pair, in order |
| FormEncoding.ParseSerialize | lib/parsers.ts:113 | parsing a serialized list of pairs gives back the pairs, in order |
| Queries.Field | lib/parsers.ts:100 | `field \|\| fallback`: a non-empty field is sent as given, a missing or empty one as the fallback |
| Queries.SortDirection | lib/parsers.ts:103 | `sortd` is `1` exactly for an explicit ascending order and `0` otherwise |
| Queries.ParseQuery | lib/parsers.ts:98-114 | thirteen appends to an empty parameter list, then serialization: the result is the serialized pairs of the query |
| Queries.QueryParams | lib/parsers.ts:100-112 | every query sends the same thirteen names, in the fixed order |
| Queries.QueryPieces | lib/parsers.ts:98-113 | the encoded query splits on `&` into thirteen `name=value` pieces with the names unchanged, and parses back into the appended pairs |
| Queries.ParameterNameUnreserved | lib/parsers.ts:100-112 | each parameter name serializes to itself |
| Queries.PageIgnored | lib/parsers.ts:98-114 | the page number plays no part in the encoded query |
| Queries.QueryParamsMeaning | lib/parsers.ts:100-112 | the search text is sent as given (empty when missing); `t` is always `games`; `sortd` is `1` only for ascending; `randomize` is `1` exactly when set |
| Queries.EmptyQueryParams | lib/parsers.ts:98-114 | the empty query sends every default: `popular`, `0`, `main` and empty strings |
| Queries.SpaceAsPlus | lib/parsers.ts:113 | words joined by a space are sent joined by `+` |
| Results.ReadEntry | lib/parsers.ts:133-178 | an entry is read exactly when it has a title `href` and a thumbnail (link first); the record's id, name, image address and durations are those of the entry, each duration present exactly when non-zero and then positive |
| Results.Reported | lib/parsers.ts:155-170 | a duration is reported exactly when it is not zero, and then as itself |
| Results.ParseGameResults | lib/parsers.ts:116-182 | empty heading text gives `(0, [])`; otherwise it succeeds exactly when every entry can be read, with the announced total and one record per entry in page order, and fails naming the first unreadable entry |
| Detail.StatWords | lib/parsers.ts:213-216 | a stats item always has a first word |
| Detail.PercentRatio | lib/parsers.ts:218 | an empty value or a bare `%` falls back to `'0'`, the ratio 0 |
| Detail.PercentOfNumeral | lib/parsers.ts:218 | `<n>%` reads as the ratio n/100, which lies in [0, 1] up to 100% |
| Detail.StatEntry | lib/parsers.ts:213-221 | an item with a name assigns its lower-cased name; a ratio exactly for `Retired` and `Rating`, read from the first word as `parseInt` of it without `%` over 100; the raw value otherwise; a one-word item throws |
| Detail.RatioItem | lib/parsers.ts:217-218 | `<n>% Retired` and `<n>% Rating` assign the ratio n/100 under `retired` and `rating` |
| Detail.RatioWords | lib/parsers.ts:217-218 | an item whose words are `<n>%` and `Retired` or `Rating` assigns n/100 under the lower-cased name |
| Detail.PercentWords | lib/parsers.ts:213-216 | `<n>% <name>` splits into the percentage and the name |
| Detail.SplitTwoWords | lib/parsers.ts:216 | two space-free words joined by one space split back into the two words |
| Detail.ParseStats | lib/parsers.ts:211-222 | it succeeds exactly when every item has a name, each name holding its last item's value; otherwise it names the first unnamed item |
| Detail.NoThrowNamed | lib/parsers.ts:217-220 | the stats callback throws on none of the first `k` items exactly when they all have a name |
| Detail.StatKeys | lib/parsers.ts:220 | the stats keys are exactly the lower-cased names of the items |
| Detail.StatRatios | lib/parsers.ts:217-218 | only `retired` and `rating` hold ratios |
| Detail.BlockKey | lib/parsers.ts:228-231 | a block's key has no white space at either end |
| Detail.BlockValue | lib/parsers.ts:232-237 | with a key that does not occur in the text, the value is the whole text trimmed; a value has no edge white space |
| Detail.BlockValueAfterKey | lib/parsers.ts:232-237 | a block whose text holds its key exactly once (`Platforms: PC, Mac` with key `Platforms:`) has as value the trimmed text after the key (`PC, Mac`) |
| Detail.LastValueNone | lib/parsers.ts:227-258 | a label has a last value exactly when some block carries it |
| Detail.LastValueAt | lib/parsers.ts:227-258 | the last value of a label is the value of the last block carrying it |
| Detail.LastValueFrom | lib/parsers.ts:227-258 | a last value comes from the last block carrying the label |
| Detail.ListOf | lib/parsers.ts:241 | a list is set exactly when a value is; it is never empty, and joining it with `", "` gives back the value |
| Detail.RegionKeys | lib/parsers.ts:255 | removing the `:` of `NA:`, `EU:` and `JP:` gives the region names |
| Detail.LastValueSnoc | lib/parsers.ts:227-258 | one more block changes the last value of its own label only |
| Detail.ReadBlock | lib/parsers.ts:239-257 | one block: its label's property or region takes the block's value; any other label changes nothing |
| Detail.ParseMetadata | lib/parsers.ts:225-258 | platforms, genres and developers are the last such block's value split on `", "`; the publisher is the last such value as one string; release dates hold exactly the regions that had a block, each with its last value |
| Detail.ReadRows | lib/parsers.ts:269-287 | the nested row loops collect the trimmed cell texts of every row, in order |
| Detail.TableEntry | lib/parsers.ts:262-290 | one table's entry: the key is `unknown` exactly when the trimmed heading is not one of the six names, there is one record per body row, and an unrecognised table's records are all empty |
| Detail.ParseTables | lib/parsers.ts:261-291 | the merged tables hold every kind some table named, with the entry of the last table of that kind |
| Detail.GameplayKinds | lib/parsers.ts:261-291 | a kind is present exactly when some table's name selects it; `single` exactly when a table is named `Single-Player`; every key is a declared kind or `unknown` |
| Detail.Description | lib/parsers.ts:203-207 | no metadata block gives an empty description; otherwise it is the first block's text with its first `...Read More` cut out, trimmed, and so has no edge white space |
| Detail.ReadMoreDropped | lib/parsers.ts:206 | the first `...Read More` is cut out of the first block's text, wherever it stands and whatever follows it |
| Detail.ParseGameDetail | lib/parsers.ts:184-303 | it succeeds exactly when the navigation link has an `href`, the image exists and every stats item has a name, and fails with the first of these reads that throws. On success the record holds the link's id, the trimmed name, the description, the image address, the stats, the metadata, the release dates and the merged tables as stated above |

## Left out

- The HTML library's parsing and selector evaluation. A page is given as the texts and first elements the selectors return (`Results.ResultsPage`, `Detail.DetailPage`).
- `lib/index.ts`: the network requests, time-outs, headers and the mapping of a failed detail request to `null`. It is not part of this model.
- `BASE_URL` comes from a configuration file that is not part of this model. It is a parameter of `ParseGameResults` and `ParseGameDetail`.
- JavaScript double arithmetic in `parseFloat`, `/ 60.0` and `/ 100`. The model uses exact reals, so a rounding difference, or a numeral too long for a double, is not modelled.
- `parseFloat(hours.replace('Hours','').replace('½','.5'))` is modelled by its value: the digits, plus 0.5 when `½` is present. The two replacements are not modelled step by step.
- `toLowerCase` and the `i` flag of the patterns fold ASCII letters only. Non-ASCII case folding is not modelled.
- Lone surrogates cannot be written in a Dafny `string`. The serializer's replacement of an unpaired surrogate by U+FFFD is not modelled. The partner decoder is strict UTF-8.
- `URLSearchParams` is modelled as its list of name-value pairs. `ParseQuery` appends to a local sequence, so no builder object is modelled.
- Enumerations: only the defaults the encoder falls back on are modelled. Query fields are optional strings, since the encoder never checks membership.
- `parseQuery()` called with no argument dereferences `undefined`. The model has no such call; the empty query `EMPTY_QUERY`, with every field absent, stands for it.
- The `page` field of a query is carried but unused, as in the source (`Queries.PageIgnored`).
- Durations.ParseTotalResults: its own contract covers only the no-match case. The value read from a match is stated by `Durations.ParseTotalOfAnnouncement` and `Durations.TotalAfter`.
- Durations.ParseRelativeTimes: its own contract states only that the result is non-negative. The value it reads is stated by `Durations.ParseFragment` and `Durations.NoLabelNoDuration`. `Durations.ParseFragment` covers text in front of the label only when no label of the mode starts there; when the title itself holds a label (a game named `Solo …`, say) the earlier label is the one read, and no lemma states its value.
- DigitOf: its contract bounds a digit's value but does not give it. The value is stated by `JsString.DigitOfChar`, through the digit character of each value, because a value postcondition on `DigitOf` makes every proof that reads a numeral far more expensive.
- TrimStart: its contract does not say that the result is a suffix of the text. That fact is `JsString.TrimStartSuffix`, a separate lemma, because as a postcondition it makes every proof that uses `trim` far more expensive.
- Tables.ZipRow: it carries no contract of its own. What a row's record holds is stated by `Tables.ZipRowMeaning`, because a postcondition on the recursive function makes the proof of `Tables.ParseTableTimes` far more expensive.

=== FILE: detail.dfy ===
/**
 * The detail-page reader: the game's id, name, description and image, its
 * stats, its optional metadata and release dates, and its gameplay-time tables.
 */
module Detail {
  import opened Wrappers
  import opened JsString
  import opened Types
  import opened Markup
  import opened Tables
  import opened Overwrites
  import opened Selections

  /** One `.profile_info` block: its whole text, and the text of its `strong` label. */
  datatype MetadataBlock = MetadataBlock(text: string, strongText: string)

  /** One `table`: the text of its first `thead tr td`, and the text of every `td` of every `tbody tr`. */
  datatype TableMarkup = TableMarkup(headText: string, cells: seq<seq<string>>)

  /** The detail page, as its selectors read it. */
  datatype DetailPage = DetailPage(
    navLink: Element,             // first `.profile_nav ul li a`, with its `href`
    headerText: string,           // text of `.profile_header_game > .profile_header`
    image: Element,               // `.game_image img`, with its `src`
    statItems: seq<string>,       // text of each `.profile_details ul li`
    metadata: seq<MetadataBlock>, // each `.profile_info`
    tables: seq<TableMarkup>)     // each `table`

  /** Why reading the page threw. */
  datatype DetailError =
    | NavLinkMissing        // no navigation link, or one without `href`
    | ImageMissing          // no game image
    | UnnamedStat(item: nat) // a stats item of a single word has no name to lower-case

  // ---------------------------------------------------------------------------
  // Stats

  /** The space-separated words of a trimmed stats item; the first is the value, the second the name. */
  function StatWords(item: string): (words: seq<string>)
    ensures |words| >= 1
  {
    Split(Trim(item), " ")
  }

  /** `parseInt(value.replace('%', '') || '0') / 100`; `None` is `NaN`. */
  function PercentRatio(value: string): (r: Option<real>)
    ensures value == [] || value == "%" ==> r == Some(0.0)
  {
    NoPercentIsZero();
    match ParseInt(OrElse(ReplaceFirst(value, "%", ""), "0"))
    case None => None
    case Some(n) => Some(n as real / 100.0)
  }

  /** With the `%` removed, an empty value and a bare `%` both fall back to `0`. */
  lemma {:induction false} NoPercentIsZero()
    ensures ReplaceFirst("", "%", "") == "" && ReplaceFirst("%", "%", "") == ""
    ensures ParseInt(OrElse("", "0")) == Some(0)
  {
    assert IndexOf("%", "%", 0) == Some(0) by {
      assert OccursAt("%", "%", 0);
    }
    ParseIntOfNumeral(0);
    assert NatToDigits(0) == "0";
  }

  /** A whole percentage reads as that fraction of 1, which lies in [0, 1] up to 100%. */
  lemma {:induction false} PercentOfNumeral(n: nat)
    ensures PercentRatio(NatToDigits(n) + "%") == Some(n as real / 100.0)
    ensures n <= 100 ==> 0.0 <= n as real / 100.0 <= 1.0
  {
    var d := NatToDigits(n);
    assert '%' !in d by {
      forall k | 0 <= k < |d| ensures d[k] != '%' {
        assert IsDigit(d[k]);
      }
    }
    ReplaceAfterLast(d, '%');
    ParseIntOfNumeral(n);
  }

  /** A `%` that is the only one, at the end, is what `replace` removes. */
  lemma {:induction false} ReplaceAfterLast(d: string, c: char)
    requires c !in d
    ensures ReplaceFirst(d + [c], [c], "") == d
  {
    var s := d + [c];
    assert OccursAt(s, [c], |d|) by {
      assert s[|d|..|d| + 1] == [c];
    }
    forall k | 0 <= k < |d|
      ensures !OccursAt(s, [c], k)
    {
      assert s[k..k + 1] == [d[k]];
    }
    IndexOfFirst(s, [c], |d|);
    assert s[..|d|] == d;
  }

  /**
   * The stats callback on the item at `index`: the lower-cased name and its value,
   * a ratio for `Retired` and `Rating` and the text otherwise; a one-word item throws.
   */
  function StatEntry(index: nat, item: string): (r: Result<(string, StatValue), DetailError>)
    ensures r.Success? <==> |StatWords(item)| >= 2
    ensures r.Failure? ==> r.error == UnnamedStat(index)
    ensures r.Success? ==>
      var name := StatWords(item)[1];
      && r.value.0 == Lower(name)
      && (r.value.1.Ratio? <==> name == "Retired" || name == "Rating")
      && (r.value.1.Text? ==> r.value.1.text == StatWords(item)[0])
      && (r.value.1.Ratio? ==> r.value.1.ratio == PercentRatio(StatWords(item)[0]))
  {
    var words := StatWords(item);
    if |words| < 2 then Failure(UnnamedStat(index))
    else
      var value := words[0];
      var name := words[1];
      if name == "Retired" || name == "Rating" then Success((Lower(name), Ratio(PercentRatio(value))))
      else Success((Lower(name), Text(value)))
  }

  /** A `<number>% Retired` or `<number>% Rating` item reads as the lower-cased name with the ratio. */
  lemma {:induction false} RatioItem(index: nat, n: nat, name: string)
    requires name == "Retired" || name == "Rating"
    ensures StatEntry(index, NatToDigits(n) + "% " + name)
         == Success((if name == "Retired" then "retired" else "rating", Ratio(Some(n as real / 100.0))))
  {
    PercentWords(n, name);
    RatioWords(index, NatToDigits(n) + "% " + name, n, name);
  }

  /** An item whose words are a whole percentage and `Retired` or `Rating` reads as that ratio. */
  lemma {:induction false} RatioWords(index: nat, item: string, n: nat, name: string)
    requires name == "Retired" || name == "Rating"
    requires StatWords(item) == [NatToDigits(n) + "%", name]
    ensures StatEntry(index, item)
         == Success((if name == "Retired" then "retired" else "rating", Ratio(Some(n as real / 100.0))))
  {
    PercentOfNumeral(n);
    RatioNames();
  }

  /** `<number>% <name>` splits into the percentage and the name. */
  lemma {:induction false} PercentWords(n: nat, name: string)
    requires name != [] && ' ' !in name && !IsSpace(name[|name| - 1])
    ensures StatWords(NatToDigits(n) + "% " + name) == [NatToDigits(n) + "%", name]
  {
    var d := NatToDigits(n) + "%";
    var item := NatToDigits(n) + "% " + name;
    assert item == d + " " + name;
    assert ' ' !in d by {
      forall k | 0 <= k < |d| ensures d[k] != ' ' {
        if k < |d| - 1 {
          assert IsDigit(NatToDigits(n)[k]);
        }
      }
    }
    assert item[0] == NatToDigits(n)[0] && IsDigit(item[0]);
    assert item[|item| - 1] == name[|name| - 1];
    TrimOfTrimmed(item);
    SplitTwoWords(d, name);
  }

  /** Two words without spaces, separated by one space, split into those two words. */
  lemma {:induction false} SplitTwoWords(a: string, b: string)
    requires ' ' !in a && ' ' !in b
    ensures Split(a + " " + b, " ") == [a, b]
  {
    var s := a + " " + b;
    assert OccursAt(s, " ", |a|) by {
      assert s[|a|..|a| + 1] == " ";
    }
    forall k | 0 <= k < |a|
      ensures !OccursAt(s, " ", k)
    {
      assert s[k..k + 1] == [a[k]];
    }
    IndexOfFirst(s, " ", |a|);
    assert s[..|a|] == a;
    assert s[|a| + 1..] == b;
    forall k | 0 <= k < |b|
      ensures !OccursAt(b, " ", k)
    {
      assert b[k..k + 1] == [b[k]];
    }
    assert IndexOf(b, " ", 0).None?;
  }

  /** Every stats item has a name. */
  predicate AllNamed(items: seq<string>) {
    forall i :: 0 <= i < |items| ==> |StatWords(items[i])| >= 2
  }

  /** `k` is the first stats item without a name. */
  predicate FirstUnnamed(items: seq<string>, k: nat) {
    k < |items| && |StatWords(items[k])| < 2 && AllNamed(items[..k])
  }

  /**
   * The stats loop: each item assigns its value under its lower-cased name, a
   * later item with the same name overwriting an earlier one; the first item
   * without a name throws.
   */
  method ParseStats(items: seq<string>) returns (r: Result<map<string, StatValue>, DetailError>)
    ensures r.Success? <==> AllNamed(items)
    ensures r.Success? ==> LastWins(r.value, Assignments(items, StatEntry))
    ensures r.Failure? ==> r.error.UnnamedStat? && FirstUnnamed(items, r.error.item)
  {
    r := AssignEach(items, StatEntry);
    NoThrowNamed(items, |items|);
    assert items[..|items|] == items;
    if r.Failure? {
      var k :| 0 <= k < |items| && StatEntry(k, items[k]) == Failure(r.error) && NoThrowBefore(items, StatEntry, k);
      NoThrowNamed(items, k);
    }
  }

  /** The stats callback throws on none of the first `k` items exactly when they all have a name. */
  lemma {:induction false} NoThrowNamed(items: seq<string>, k: nat)
    requires k <= |items|
    ensures NoThrowBefore(items, StatEntry, k) <==> AllNamed(items[..k])
  {
    assert forall j :: 0 <= j < k ==> items[..k][j] == items[j];
  }

  /** The stats record's keys are the lower-cased names of the items. */
  lemma {:induction false} StatKeys(items: seq<string>, stats: map<string, StatValue>, key: string)
    requires AllNamed(items)
    requires LastWins(stats, Assignments(items, StatEntry))
    ensures key in stats <==> exists i :: 0 <= i < |items| && Lower(StatWords(items[i])[1]) == key
  {
    var kvs := Assignments(items, StatEntry);
    LastWinsKeys(stats, kvs, key);
    assert forall i :: 0 <= i < |items| ==> kvs[i].0 == Lower(StatWords(items[i])[1]);
  }

  /** Only `retired` and `rating` hold ratios. */
  lemma {:induction false} StatRatios(items: seq<string>, stats: map<string, StatValue>, key: string)
    requires AllNamed(items)
    requires LastWins(stats, Assignments(items, StatEntry))
    requires key in stats && stats[key].Ratio?
    ensures key == "retired" || key == "rating"
  {
    var kvs := Assignments(items, StatEntry);
    LastWinsValue(stats, kvs, key);
    var i :| 0 <= i < |kvs| && kvs[i] == (key, stats[key]);
    assert StatEntry(i, items[i]) == Success(kvs[i]);
    var name := StatWords(items[i])[1];
    assert key == Lower(name) && (name == "Retired" || name == "Rating");
    RatioNames();
  }

  lemma {:induction false} RatioNames()
    ensures Lower("Retired") == "retired" && Lower("Rating") == "rating"
  {
  }

  // ---------------------------------------------------------------------------
  // Metadata

  /** The trimmed `strong` text, which selects what the block sets. */
  function BlockKey(b: MetadataBlock): (k: string)
    ensures k == [] || (!IsSpace(k[0]) && !IsSpace(k[|k| - 1]))
  {
    Trim(b.strongText)
  }

  /**
   * `(text.split(key).pop() || '').trim()`: the last piece `split` leaves,
   * trimmed. Splitting on the empty key splits into characters.
   */
  function BlockValue(b: MetadataBlock, key: string): (v: string)
    ensures key != [] && IndexOf(b.text, key, 0).None? ==> v == Trim(b.text)
    ensures v == [] || (!IsSpace(v[0]) && !IsSpace(v[|v| - 1]))
  {
    if key == [] then
      if b.text == [] then [] else Trim([b.text[|b.text| - 1]])
    else Trim(Last(Split(b.text, key)))
  }

  /**
   * A block whose text holds its key exactly once, as `Platforms: PC, Mac`
   * holds `Platforms:`, has as value the trimmed text after the key.
   */
  lemma {:induction false} BlockValueAfterKey(pre: string, key: string, v: string, strong: string)
    requires key != []
    requires forall k :: k != |pre| ==> !OccursAt(pre + key + v, key, k)
    ensures BlockValue(MetadataBlock(pre + key + v, strong), key) == Trim(v)
  {
    var t := pre + key + v;
    assert OccursAt(t, key, |pre|) by {
      assert t[|pre|..|pre| + |key|] == key;
    }
    IndexOfFirst(t, key, |pre|);
    assert t[|pre| + |key|..] == v;
    assert Split(t, key) == [t[..|pre|]] + Split(v, key);
    forall j: nat
      ensures !OccursAt(v, key, j)
    {
      if OccursAt(v, key, j) {
        assert t[|pre| + |key| + j..|pre| + |key| + j + |key|] == v[j..j + |key|];
        assert OccursAt(t, key, |pre| + |key| + j);
      }
    }
    assert IndexOf(v, key, 0).None?;
    assert Split(v, key) == [v];
  }

  /** The value of the last block whose key is `key`, if there is one. */
  function LastValue(blocks: seq<MetadataBlock>, key: string): (v: Option<string>)
  {
    if blocks == [] then None
    else
      var b := blocks[|blocks| - 1];
      if BlockKey(b) == key then Some(BlockValue(b, key))
      else
        var v := LastValue(blocks[..|blocks| - 1], key);
        v
  }

  /** There is a last value exactly when some block carries the key. */
  lemma {:induction false} LastValueNone(blocks: seq<MetadataBlock>, key: string)
    ensures LastValue(blocks, key).None? <==> forall i :: 0 <= i < |blocks| ==> BlockKey(blocks[i]) != key
    decreases |blocks|
  {
    if blocks != [] {
      var n := |blocks| - 1;
      var init := blocks[..n];
      LastValueNone(init, key);
      assert forall i :: 0 <= i < n ==> init[i] == blocks[i];
      if BlockKey(blocks[n]) != key {
        assert LastValue(blocks, key) == LastValue(init, key);
      } else {
        assert LastValue(blocks, key).Some?;
      }
    }
  }

  /** The last block carrying the key is the one whose value is the last value. */
  lemma {:induction false} LastValueAt(blocks: seq<MetadataBlock>, key: string, i: nat)
    requires i < |blocks| && BlockKey(blocks[i]) == key
    requires forall j :: i < j < |blocks| ==> BlockKey(blocks[j]) != key
    ensures LastValue(blocks, key) == Some(BlockValue(blocks[i], key))
    decreases |blocks|
  {
    var n := |blocks| - 1;
    if i < n {
      var init := blocks[..n];
      assert LastValue(blocks, key) == LastValue(init, key) by {
        assert BlockKey(blocks[n]) != key;
      }
      assert init[i] == blocks[i];
      forall j | i < j < n
        ensures BlockKey(init[j]) != key
      {
        assert init[j] == blocks[j];
      }
      LastValueAt(init, key, i);
    }
  }

  /** Block `i` carries the key and no later block does. */
  predicate LastKeyed(blocks: seq<MetadataBlock>, key: string, i: nat) {
    i < |blocks| && BlockKey(blocks[i]) == key && forall j :: i < j < |blocks| ==> BlockKey(blocks[j]) != key
  }

  /** The last keyed block stays the last one when a block without the key is appended. */
  lemma {:induction false} LastKeyedSnoc(blocks: seq<MetadataBlock>, key: string, i: nat)
    requires blocks != [] && BlockKey(blocks[|blocks| - 1]) != key
    requires LastKeyed(blocks[..|blocks| - 1], key, i)
    ensures LastKeyed(blocks, key, i)
  {
    var n := |blocks| - 1;
    var init := blocks[..n];
    assert init[i] == blocks[i];
    forall j | i < j < |blocks|
      ensures BlockKey(blocks[j]) != key
    {
      if j < n {
        assert init[j] == blocks[j];
      }
    }
  }

  /** A last value comes from the last block carrying the key. */
  lemma {:induction false} LastValueFrom(blocks: seq<MetadataBlock>, key: string)
    requires LastValue(blocks, key).Some?
    ensures exists i: nat :: LastKeyed(blocks, key, i) && LastValue(blocks, key) == Some(BlockValue(blocks[i], key))
    decreases |blocks|
  {
    var n := |blocks| - 1;
    if BlockKey(blocks[n]) == key {
      assert LastKeyed(blocks, key, n);
    } else {
      var init := blocks[..n];
      assert LastValue(blocks, key) == LastValue(init, key);
      LastValueFrom(init, key);
      var i: nat :| LastKeyed(init, key, i) && LastValue(init, key) == Some(BlockValue(init[i], key));
      assert init[i] == blocks[i];
      LastKeyedSnoc(blocks, key, i);
    }
  }

  /** `value.split(', ')`, when there is a value. */
  function ListOf(v: Option<string>): (l: Option<seq<string>>)
    ensures l.Some? <==> v.Some?
    ensures l.Some? ==> |l.value| >= 1 && Join(l.value, ", ") == v.value
  {
    match v
    case None => None
    case Some(s) =>
      JoinSplit(s, ", ");
      Some(Split(s, ", "))
  }

  /** The region names the release dates are keyed by, and the labels they come from. */
  const REGIONS: seq<string> := ["NA", "EU", "JP"]

  /** `key.replace(':', '')` on the three region labels gives the region names. */
  lemma {:induction false} RegionKeys()
    ensures ReplaceFirst("NA:", ":", "") == "NA"
    ensures ReplaceFirst("EU:", ":", "") == "EU"
    ensures ReplaceFirst("JP:", ":", "") == "JP"
  {
    ReplaceAfterLast("NA", ':');
    assert "NA" + [':'] == "NA:";
    ReplaceAfterLast("EU", ':');
    assert "EU" + [':'] == "EU:";
    ReplaceAfterLast("JP", ':');
    assert "JP" + [':'] == "JP:";
  }

  /** The optional properties the metadata blocks set. */
  datatype Metadata = Metadata(
    platforms: Option<seq<string>>,
    genres: Option<seq<string>>,
    developers: Option<seq<string>>,
    publisher: Option<string>)

  /** `dates` holds the value of the last block labelled `label` under `region`, when there is one. */
  ghost predicate DateFrom(dates: map<string, string>, blocks: seq<MetadataBlock>, region: string, tag: string) {
    && (region in dates <==> LastValue(blocks, tag).Some?)
    && (region in dates ==> dates[region] == LastValue(blocks, tag).value)
  }

  /** The release dates, keyed by region. */
  ghost predicate DatesOf(dates: map<string, string>, blocks: seq<MetadataBlock>) {
    && dates.Keys <= {"NA", "EU", "JP"}
    && DateFrom(dates, blocks, "NA", "NA:")
    && DateFrom(dates, blocks, "EU", "EU:")
    && DateFrom(dates, blocks, "JP", "JP:")
  }

  /** One more block changes the last value of its own label only. */
  lemma {:induction false} LastValueSnoc(blocks: seq<MetadataBlock>, b: MetadataBlock)
    ensures forall key :: LastValue(blocks + [b], key) ==
                          (if BlockKey(b) == key then Some(BlockValue(b, key)) else LastValue(blocks, key))
  {
    assert (blocks + [b])[..|blocks|] == blocks;
  }

  /** `meta` and `dates` are what the metadata loop leaves after the blocks `blocks`. */
  ghost predicate MetadataOf(meta: Metadata, dates: map<string, string>, blocks: seq<MetadataBlock>) {
    && meta.platforms == ListOf(LastValue(blocks, "Platforms:"))
    && meta.genres == ListOf(LastValue(blocks, "Genres:"))
    && meta.developers == ListOf(LastValue(blocks, "Developers:"))
    && meta.publisher == LastValue(blocks, "Publishers:")
    && DatesOf(dates, blocks)
  }

  /**
   * The body of the metadata loop on one block: `Platforms:`, `Genres:` and
   * `Developers:` set a list, `Publishers:` sets the publisher, and `NA:`,
   * `EU:` and `JP:` set a release date, overwriting what an earlier block set;
   * a block with any other label changes nothing.
   */
  method ReadBlock(ghost before: seq<MetadataBlock>, meta: Metadata, dates: map<string, string>, b: MetadataBlock)
    returns (meta': Metadata, dates': map<string, string>)
    requires MetadataOf(meta, dates, before)
    ensures MetadataOf(meta', dates', before + [b])
  {
    LastValueSnoc(before, b);
    RegionKeys();
    meta', dates' := meta, dates;
    var key := BlockKey(b);
    var value := BlockValue(b, key);
    if key == "Platforms:" {
      meta' := meta.(platforms := Some(Split(value, ", ")));
    } else if key == "Genres:" {
      meta' := meta.(genres := Some(Split(value, ", ")));
    } else if key == "Developers:" {
      meta' := meta.(developers := Some(Split(value, ", ")));
    } else if key == "Publishers:" {
      meta' := meta.(publisher := Some(value));
    } else if key == "NA:" || key == "EU:" || key == "JP:" {
      dates' := dates[ReplaceFirst(key, ":", "") := value];
    }
  }

  /** The metadata loop: every block read in order, a later block overriding an earlier one with the same label. */
  method ParseMetadata(blocks: seq<MetadataBlock>) returns (meta: Metadata, dates: map<string, string>)
    ensures meta.platforms == ListOf(LastValue(blocks, "Platforms:"))
    ensures meta.genres == ListOf(LastValue(blocks, "Genres:"))
    ensures meta.developers == ListOf(LastValue(blocks, "Developers:"))
    ensures meta.publisher == LastValue(blocks, "Publishers:")
    ensures DatesOf(dates, blocks)
  {
    meta := Metadata(None, None, None, None);
    dates := map[];
    var i := 0;
    while i < |blocks|
      invariant 0 <= i <= |blocks|
      invariant MetadataOf(meta, dates, blocks[..i])
    {
      assert blocks[..i + 1] == blocks[..i] + [blocks[i]];
      meta, dates := ReadBlock(blocks[..i], meta, dates, blocks[i]);
      i := i + 1;
    }
    assert blocks[..i] == blocks;
  }

  // ---------------------------------------------------------------------------
  // Tables

  /** Every cell text of a row, trimmed. */
  function TrimRow(cells: seq<string>): (row: seq<string>)
    ensures |row| == |cells| && forall j :: 0 <= j < |cells| ==> row[j] == Trim(cells[j])
  {
    seq(|cells|, j requires 0 <= j < |cells| => Trim(cells[j]))
  }

  /** Every row with its cell texts trimmed. */
  function TrimCells(cells: seq<seq<string>>): (rows: seq<seq<string>>)
    ensures |rows| == |cells| && forall i :: 0 <= i < |cells| ==> rows[i] == TrimRow(cells[i])
  {
    seq(|cells|, i requires 0 <= i < |cells| => TrimRow(cells[i]))
  }

  /** The row loops of one table: each body row's cells, trimmed, in order. */
  method ReadRows(cells: seq<seq<string>>) returns (rows: seq<seq<string>>)
    ensures rows == TrimCells(cells)
  {
    rows := [];
    var i := 0;
    while i < |cells|
      invariant 0 <= i <= |cells|
      invariant rows == TrimCells(cells[..i])
    {
      var row: seq<string> := [];
      var j := 0;
      while j < |cells[i]|
        invariant 0 <= j <= |cells[i]|
        invariant row == TrimRow(cells[i][..j])
      {
        row := row + [Trim(cells[i][j])];
        j := j + 1;
      }
      assert cells[i][..j] == cells[i];
      assert cells[..i + 1] == cells[..i] + [cells[i]];
      rows := rows + [row];
      i := i + 1;
    }
    assert cells[..i] == cells;
  }

  /**
   * The entry `parseTableTimes` gives for one table: its key is "unknown"
   * exactly when the trimmed heading is not a recognised name, there is one
   * record per body row, and an unrecognised table's records are all empty.
   */
  function TableEntry(t: TableMarkup): (e: (string, seq<Row>))
    ensures e.0 == "unknown" <==> Trim(t.headText) !in TABLE_NAMES
    ensures |e.1| == |t.cells|
    ensures e.0 == "unknown" ==> forall i :: 0 <= i < |e.1| ==> e.1[i] == map[]
  {
    var name := Trim(t.headText);
    (TableKey(name), Records(TableFields(name), TrimCells(t.cells)))
  }

  /** The tables' entries, in document order. */
  function TableEntries(tables: seq<TableMarkup>): (kvs: seq<(string, seq<Row>)>)
    ensures |kvs| == |tables| && forall i :: 0 <= i < |tables| ==> kvs[i] == TableEntry(tables[i])
  {
    seq(|tables|, i requires 0 <= i < |tables| => TableEntry(tables[i]))
  }

  lemma {:induction false} TableEntriesSnoc(tables: seq<TableMarkup>, i: nat)
    requires i < |tables|
    ensures TableEntries(tables[..i + 1]) == TableEntries(tables[..i]) + [TableEntry(tables[i])]
  {
    assert tables[..i + 1][i] == tables[i];
  }

  /** Assigning a one-key object is setting that key. */
  lemma {:induction false} MergeOne<K, V>(m: map<K, V>, piece: map<K, V>, k: K)
    requires piece.Keys == {k}
    ensures m + piece == m[k := piece[k]]
  {
  }

  /**
   * The tables loop: `Object.assign` of each table's one-key map, so a later
   * table of the same kind replaces an earlier one.
   */
  method ParseTables(tables: seq<TableMarkup>) returns (gameplays: map<string, seq<Row>>)
    ensures LastWins(gameplays, TableEntries(tables))
  {
    gameplays := map[];
    LastWinsEmpty<string, seq<Row>>();
    var i := 0;
    while i < |tables|
      invariant 0 <= i <= |tables|
      invariant LastWins(gameplays, TableEntries(tables[..i]))
    {
      var name := Trim(tables[i].headText);
      var rows := ReadRows(tables[i].cells);
      var piece := ParseTableTimes(name, rows);
      LastWinsStep(gameplays, TableEntries(tables[..i]), TableKey(name), piece[TableKey(name)]);
      TableEntriesSnoc(tables, i);
      MergeOne(gameplays, piece, TableKey(name));
      gameplays := gameplays + piece;
      i := i + 1;
    }
    assert tables[..i] == tables;
  }

  /**
   * A table kind is present exactly when some table's name selects it; the
   * `single` record is there exactly when a table is named `Single-Player`, and
   * every key is a declared kind or `unknown`.
   */
  lemma {:induction false} GameplayKinds(tables: seq<TableMarkup>, gameplays: map<string, seq<Row>>, key: string)
    requires LastWins(gameplays, TableEntries(tables))
    ensures key in gameplays <==> exists i :: 0 <= i < |tables| && TableKey(Trim(tables[i].headText)) == key
    ensures "single" in gameplays <==> exists i :: 0 <= i < |tables| && Trim(tables[i].headText) == "Single-Player"
    ensures key in gameplays ==> key in GAMEPLAY_KINDS || key == "unknown"
  {
    var kvs := TableEntries(tables);
    LastWinsKeys(gameplays, kvs, key);
    LastWinsKeys(gameplays, kvs, "single");
    forall i | 0 <= i < |tables|
      ensures TableKey(Trim(tables[i].headText)) == "single" <==> Trim(tables[i].headText) == "Single-Player"
      ensures TableKey(Trim(tables[i].headText)) in GAMEPLAY_KINDS || TableKey(Trim(tables[i].headText)) == "unknown"
    {
      SchemaKinds(Trim(tables[i].headText));
    }
  }

  // ---------------------------------------------------------------------------
  // The whole page

  /** The suffix the site appends to a shortened description. */
  const READ_MORE := "...Read More"

  /**
   * The first metadata block's text with its first `...Read More` removed, then
   * trimmed; without blocks, the empty text.
   */
  function Description(blocks: seq<MetadataBlock>): (d: string)
    ensures blocks == [] ==> d == []
    ensures blocks != [] && IndexOf(blocks[0].text, READ_MORE, 0).None? ==> d == Trim(blocks[0].text)
    ensures blocks != [] && IndexOf(blocks[0].text, READ_MORE, 0).Some? ==>
      var text := blocks[0].text;
      var k := IndexOf(text, READ_MORE, 0).value;
      d == Trim(text[..k] + text[k + |READ_MORE|..])
    ensures d == [] || (!IsSpace(d[0]) && !IsSpace(d[|d| - 1]))
  {
    var text := if blocks == [] then "" else blocks[0].text;
    var cut := ReplaceFirst(text, READ_MORE, "");
    assert IndexOf(text, READ_MORE, 0).Some? ==>
      var k := IndexOf(text, READ_MORE, 0).value;
      cut == text[..k] + text[k + |READ_MORE|..];
    Trim(cut)
  }

  /**
   * A description whose first `...Read More` follows `text` loses it, whatever
   * follows it.
   */
  lemma {:induction false} ReadMoreDropped(text: string, tail: string, strongText: string, rest: seq<MetadataBlock>)
    requires forall k :: 0 <= k < |text| ==> !OccursAt(text + READ_MORE + tail, READ_MORE, k)
    ensures Description([MetadataBlock(text + READ_MORE + tail, strongText)] + rest) == Trim(text + tail)
  {
    var t := text + READ_MORE + tail;
    var blocks := [MetadataBlock(t, strongText)] + rest;
    assert blocks[0].text == t;
    Slices3(text, READ_MORE, tail);
    assert OccursAt(t, READ_MORE, |text|);
    IndexOfFirst(t, READ_MORE, |text|);
    assert t[..|text|] + t[|text| + |READ_MORE|..] == text + tail;
  }

  /** What the reads of the page throw, in the order they happen. */
  predicate Throws(page: DetailPage, e: DetailError) {
    match e
    case NavLinkMissing => !HasAttribute(page.navLink)
    case ImageMissing => HasAttribute(page.navLink) && page.image.Absent?
    case UnnamedStat(k) => HasAttribute(page.navLink) && page.image.Present? && FirstUnnamed(page.statItems, k)
  }

  /** The page can be read to the end. */
  predicate Readable(page: DetailPage) {
    HasAttribute(page.navLink) && page.image.Present? && AllNamed(page.statItems)
  }

  /**
   * `parseGameDetail`: the id from the navigation link, the trimmed name, the
   * description, the absolute image address, the stats, the optional metadata
   * and release dates, and the gameplay tables; or what the first failing read threw.
   */
  method ParseGameDetail(page: DetailPage, baseUrl: string) returns (r: Result<GameDetail, DetailError>)
    ensures r.Success? <==> Readable(page)
    ensures r.Failure? ==> Throws(page, r.error)
    ensures r.Success? ==>
      var g := r.value;
      && g.id == IdOfHref(page.navLink.attribute.value)
      && g.name == Trim(page.headerText)
      && g.description == Description(page.metadata)
      && g.imageUrl == ImageUrl(baseUrl, page.image.attribute)
      && LastWins(g.stats, Assignments(page.statItems, StatEntry))
      && g.platforms == ListOf(LastValue(page.metadata, "Platforms:"))
      && g.genres == ListOf(LastValue(page.metadata, "Genres:"))
      && g.developers == ListOf(LastValue(page.metadata, "Developers:"))
      && g.publisher == LastValue(page.metadata, "Publishers:")
      && DatesOf(g.releaseDates, page.metadata)
      && LastWins(g.gameplays, TableEntries(page.tables))
  {
    if !HasAttribute(page.navLink) {
      return Failure(NavLinkMissing);
    }
    var id := IdOfHref(page.navLink.attribute.value);
    var name := Trim(page.headerText);
    var description := Description(page.metadata);
    if page.image.Absent? {
      return Failure(ImageMissing);
    }
    var src := page.image.attribute;
    var stats := ParseStats(page.statItems);
    if stats.Failure? {
      return Failure(stats.error);
    }
    var meta, dates := ParseMetadata(page.metadata);
    var gameplays := ParseTables(page.tables);
    r := Success(GameDetail(id, name, description, ImageUrl(baseUrl, src), stats.value,
                            meta.platforms, meta.genres, meta.developers, meta.publisher, dates, gameplays));
  }
}

=== FILE: durations.dfy ===
/**
 * The two regular-expression readers of the search page, written as
 * hand-made matchers: the "We Found N Games" count, and the play-mode
 * durations such as `Main Story 8½ Hours` or `Vs. 30 Mins`.
 * All four duration patterns and the count pattern ignore ASCII case.
 */
module Durations {
  import opened Wrappers
  import opened JsString

  /** `lit`, written in lower case, starts `s` when case is ignored. */
  predicate StartsWithIgnoringCase(s: string, lit: string) {
    |lit| <= |s| && forall k :: 0 <= k < |lit| ==> LowerChar(s[k]) == lit[k]
  }

  /**
   * What a non-global `exec` finds: the leftmost position at or after `from`
   * where `at` matches the rest of `s`, with what `at` read there.
   */
  function Leftmost<T>(s: string, at: string -> Option<T>, from: nat): (r: Option<(nat, T)>)
    ensures r.Some? ==> from <= r.value.0 < |s| && at(s[r.value.0..]) == Some(r.value.1)
    ensures r.Some? ==> forall k {:trigger at(s[k..])} :: from <= k < r.value.0 ==> at(s[k..]).None?
    ensures r.None? ==> forall k {:trigger at(s[k..])} :: from <= k < |s| ==> at(s[k..]).None?
    decreases |s| - from
  {
    if from >= |s| then None
    else match at(s[from..])
      case Some(v) => Some((from, v))
      case None => Leftmost(s, at, from + 1)
  }

  // ---------------------------------------------------------------------------
  // /We Found (?<total>\d+) Games/i

  /** The count when `s` starts with `We Found <digits> Games`. */
  function TotalAt(s: string): (r: Option<nat>)
    ensures r.Some? ==> StartsWithIgnoringCase(s, "we found ") && |s| >= 16 && IsRadixDigit(s[9], 10)
  {
    if StartsWithIgnoringCase(s, "we found ") then
      var t := s[9..];
      var n := DigitSpan(t, 10);
      if n > 0 && StartsWithIgnoringCase(t[n..], " games") then Some(DigitsValue(t[..n], 10)) else None
    else None
  }

  /** `parseTotalResults`: the number in the first `We Found N Games`, or 0. */
  function ParseTotalResults(heading: string): (total: nat)
    ensures Leftmost(heading, TotalAt, 0).None? ==> total == 0
  {
    match Leftmost(heading, TotalAt, 0)
    case None => 0
    case Some((_, n)) => n
  }

  /** The first position where `at` reads something is what `Leftmost` finds. */
  lemma {:induction false} LeftmostIs<T>(s: string, at: string -> Option<T>, from: nat, i: nat, v: T)
    requires from <= i < |s| && at(s[i..]) == Some(v)
    requires forall k :: from <= k < i ==> at(s[k..]).None?
    ensures Leftmost(s, at, from) == Some((i, v))
    decreases i - from
  {
    if from < i {
      assert at(s[from..]).None?;
      LeftmostIs(s, at, from + 1, i, v);
    }
  }

  /** The two words around the count, as the heading writes them, match the pattern's words. */
  lemma {:induction false} AnnouncementWords()
    ensures |"We Found "| == 9 && StartsWithIgnoringCase("We Found ", "we found ")
    ensures StartsWithIgnoringCase(" Games", " games")
  {
  }

  /** The pieces of four concatenated strings, recovered by slicing. */
  lemma {:induction false} Slices(a: string, b: string, c: string, e: string)
    ensures a + b + c + e == a + (b + (c + e))
    ensures (a + b + c + e)[..|a|] == a
    ensures (a + b + c + e)[|a|..] == b + (c + e)
    ensures (a + b + c + e)[|a| + |b|..] == c + e
    ensures (a + b + c + e)[|a| + |b| + |c|..] == e
  {
  }

  /** Concatenation regrouped: the heading as the text before the count announcement and the announcement. */
  lemma {:induction false} Regroup(pre: string, w: string, d: string, g: string, post: string)
    ensures pre + (w + d + g + post) == pre + w + d + g + post
  {
  }

  /** `<we found ><n>< games>` followed by anything reads as `n`, whatever the case of the two words. */
  lemma {:induction false} TotalOfDigits(w: string, n: nat, g: string, post: string)
    requires |w| == 9 && StartsWithIgnoringCase(w, "we found ")
    requires StartsWithIgnoringCase(g, " games")
    ensures TotalAt(w + NatToDigits(n) + g + post) == Some(n)
  {
    var d := NatToDigits(n);
    var here := w + d + g + post;
    assert StartsWithIgnoringCase(here, "we found ") by {
      forall k | 0 <= k < 9
        ensures LowerChar(here[k]) == "we found "[k]
      {
        assert here[k] == w[k];
      }
    }
    var t := here[9..];
    Slices(w, d, g, post);
    assert (g + post)[0] == ' ' by {
      assert LowerChar(g[0]) == " games"[0];
    }
    DigitSpanOfDigitsThen(d, g + post, 10);
    assert t[DigitSpan(t, 10)..] == g + post;
    assert t[..|d|] == d;
    NatToDigitsValue(n);
  }

  /** No count is read where the text does not start with a `w`. */
  lemma {:induction false} NoTotalAt(s: string)
    requires s != [] && LowerChar(s[0]) != 'w'
    ensures TotalAt(s).None?
  {
  }

  /** No count is matched at any position of `p`, the text in front of `t`. */
  predicate NoTotalIn(p: string, t: string) {
    forall k :: 0 <= k < |p| ==> TotalAt((p + t)[k..]).None?
  }

  /** Text holding no `w` holds no match. */
  lemma {:induction false} NoTotalWithoutW(p: string, t: string)
    requires forall k :: 0 <= k < |p| ==> LowerChar(p[k]) != 'w'
    ensures NoTotalIn(p, t)
  {
    forall k | 0 <= k < |p|
      ensures TotalAt((p + t)[k..]).None?
    {
      assert (p + t)[k..][0] == p[k];
      NoTotalAt((p + t)[k..]);
    }
  }

  /** A heading that announces the count after text in which no match starts reads as that count. */
  lemma {:induction false} TotalAfter(pre: string, here: string, n: nat)
    requires NoTotalIn(pre, here)
    requires here != [] && TotalAt(here) == Some(n)
    ensures ParseTotalResults(pre + here) == n
  {
    var s := pre + here;
    assert s[|pre|..] == here;
    forall k | 0 <= k < |pre|
      ensures TotalAt(s[k..]).None?
    {
    }
    LeftmostIs(s, TotalAt, 0, |pre|, n);
  }

  /** A heading that announces `n` games, after text in which no match starts, reads as `n`. */
  lemma {:induction false} ParseTotalOfAnnouncement(pre: string, n: nat, post: string)
    requires NoTotalIn(pre, "We Found " + NatToDigits(n) + " Games" + post)
    ensures ParseTotalResults(pre + "We Found " + NatToDigits(n) + " Games" + post) == n
  {
    AnnouncementWords();
    var here := "We Found " + NatToDigits(n) + " Games" + post;
    TotalOfDigits("We Found ", n, " Games", post);
    TotalAfter(pre, here, n);
    Regroup(pre, "We Found ", NatToDigits(n), " Games", post);
  }

  // ---------------------------------------------------------------------------
  // /(<label>)(?<hours>\d+½?Hours)?(?<mins>\d+Mins)?/i after removing \s

  datatype PlayMode = Main | Extended | Completionist | Multi

  /** The label alternatives of each mode's pattern, in lower case and in pattern order. */
  function Labels(mode: PlayMode): (alts: seq<string>)
    ensures forall i :: 0 <= i < |alts| ==> alts[i] != []
  {
    match mode
    case Main => ["mainstory", "solo"]
    case Extended => ["main+extra"]
    case Completionist => ["completionist"]
    case Multi => ["vs."]
  }

  /** The length of the first alternative that starts `s`. */
  function LabelAt(alts: seq<string>, s: string): (r: Option<nat>)
    ensures r.Some? ==> 0 < r.value <= |s|
    ensures r.Some? <==> exists i :: 0 <= i < |alts| && alts[i] != [] && StartsWithIgnoringCase(s, alts[i])
  {
    if alts == [] then None
    else if alts[0] != [] && StartsWithIgnoringCase(s, alts[0]) then Some(|alts[0]|)
    else
      var r := LabelAt(alts[1..], s);
      assert forall i :: 1 <= i < |alts| ==> alts[i] == alts[1..][i - 1];
      r
  }

  const HALF: char := '\U{BD}'

  /** `<digits>½?Hours` at the start of `s`: its value in hours and the text after it. */
  function HoursAt(s: string): (r: Option<(real, string)>)
    ensures r.Some? ==> |r.value.1| + 6 <= |s| && r.value.1 == s[|s| - |r.value.1|..]
    ensures r.Some? ==> r.value.0 >= 0.0 && IsRadixDigit(s[0], 10)
  {
    var n := DigitSpan(s, 10);
    if n == 0 then None
    else
      var half := n < |s| && s[n] == HALF;
      var k := if half then n + 1 else n;
      if StartsWithIgnoringCase(s[k..], "hours") then
        Some((DigitsValue(s[..n], 10) as real + (if half then 0.5 else 0.0), s[k + 5..]))
      else None
  }

  /** `<digits>Mins` at the start of `s`: the number of minutes. */
  function MinsAt(s: string): (r: Option<nat>)
    ensures r.Some? ==> |s| >= 5 && IsRadixDigit(s[0], 10)
  {
    var n := DigitSpan(s, 10);
    if n > 0 && StartsWithIgnoringCase(s[n..], "mins") then Some(DigitsValue(s[..n], 10)) else None
  }

  /** The text after the leftmost label of `mode` in `s`, if there is one. */
  function AfterLabel(mode: PlayMode, s: string): (r: Option<string>)
    ensures r.Some? ==> |r.value| < |s| && r.value == s[|s| - |r.value|..]
  {
    match Leftmost(s, (t: string) => LabelAt(Labels(mode), t), 0)
    case None => None
    case Some((k, n)) => Some(s[k + n..])
  }

  /** The optional `<digits>½?Hours` and then the optional `<digits>Mins` at the start of `rest`, in hours. */
  function ReadDuration(rest: string): (hours: real)
    ensures hours >= 0.0
  {
    var (h, afterHours) := match HoursAt(rest) case Some(p) => p case None => (0.0, rest);
    var m := match MinsAt(afterHours) case Some(m) => m case None => 0;
    h + m as real / 60.0
  }

  /** `parseRelativeTimes`: the duration read right after the leftmost label, or 0 without a label. */
  function ParseRelativeTimes(mode: PlayMode, text: string): (hours: real)
    ensures hours >= 0.0
  {
    match AfterLabel(mode, RemoveSpaces(text))
    case None => 0.0
    case Some(rest) => ReadDuration(rest)
  }

  // ---------------------------------------------------------------------------
  // The fragments as the site writes them, and what the parser makes of them

  /** The label spellings of each mode as they appear on the page. */
  function DisplayLabels(mode: PlayMode): seq<string> {
    match mode
    case Main => ["MainStory", "Solo"]
    case Extended => ["Main+Extra"]
    case Completionist => ["Completionist"]
    case Multi => ["Vs."]
  }

  /** The optional `<h>½?Hours` of a fragment. */
  function HoursText(hours: Option<(nat, bool)>): string {
    match hours
    case None => ""
    case Some((h, half)) => NatToDigits(h) + (if half then [HALF] else []) + "Hours"
  }

  /** The optional `<m>Mins` of a fragment. */
  function MinsText(mins: Option<nat>): string {
    match mins
    case None => ""
    case Some(m) => NatToDigits(m) + "Mins"
  }

  /** A label followed by an optional `<h>½?Hours` and an optional `<m>Mins`, with no white space. */
  function Fragment(name: string, hours: Option<(nat, bool)>, mins: Option<nat>): string {
    name + HoursText(hours) + MinsText(mins)
  }

  /** The hours a fragment's `<h>½?Hours` stands for: `h`, plus ½ if marked. */
  function HoursValue(hours: Option<(nat, bool)>): real {
    match hours case None => 0.0 case Some((h, half)) => h as real + (if half then 0.5 else 0.0)
  }

  /** The value a fragment stands for: hours, plus ½ if marked, plus minutes/60. */
  function FragmentValue(hours: Option<(nat, bool)>, mins: Option<nat>): real {
    HoursValue(hours) + (match mins case None => 0.0 case Some(m) => m as real / 60.0)
  }

  /** A word whose lower-case form is `lit` starts any text it begins. */
  lemma {:induction false} StartsWithWord(w: string, lit: string, tail: string)
    requires Lower(w) == lit
    ensures StartsWithIgnoringCase(w + tail, lit)
  {
    forall k | 0 <= k < |lit|
      ensures LowerChar((w + tail)[k]) == lit[k]
    {
      assert (w + tail)[k] == w[k];
    }
  }

  /** A text that starts with `lit` still does once more text follows. */
  lemma {:induction false} StartsWithPrefix(w: string, lit: string, tail: string)
    requires StartsWithIgnoringCase(w, lit)
    ensures StartsWithIgnoringCase(w + tail, lit)
  {
    forall k | 0 <= k < |lit|
      ensures LowerChar((w + tail)[k]) == lit[k]
    {
      assert (w + tail)[k] == w[k];
    }
  }

  /** The unit words as the site writes them match the pattern's. */
  lemma {:induction false} LowerUnits()
    ensures |"Hours"| == 5 && StartsWithIgnoringCase("Hours", "hours")
    ensures StartsWithIgnoringCase("Mins", "mins")
  {
  }

  lemma {:induction false} LowerWords()
    ensures Lower("MainStory") == "mainstory" && Lower("Solo") == "solo"
    ensures Lower("Main+Extra") == "main+extra" && Lower("Completionist") == "completionist"
    ensures Lower("Vs.") == "vs."
  {
  }

  /** What `HoursAt` reads once the digits, the optional `½` and the unit word have been located. */
  lemma {:induction false} HoursAtParts(s: string, n: nat, half: bool)
    requires 0 < n < |s| && DigitSpan(s, 10) == n && (s[n] == HALF <==> half)
    requires n + (if half then 1 else 0) + 5 <= |s|
    requires StartsWithIgnoringCase(s[n + (if half then 1 else 0)..], "hours")
    ensures HoursAt(s) == Some((DigitsValue(s[..n], 10) as real + (if half then 0.5 else 0.0),
                                s[n + (if half then 1 else 0) + 5..]))
  {
  }

  /** Digits, an optional `½` and a unit word matching `hours`, followed by anything, are read as the digits' value (+ ½). */
  lemma {:induction false} HoursOfDigits(d: string, half: bool, w: string, tail: string)
    requires d != [] && AllRadixDigits(d, 10)
    requires |w| == 5 && StartsWithIgnoringCase(w, "hours")
    ensures HoursAt(d + (if half then [HALF] else []) + w + tail)
         == Some((DigitsValue(d, 10) as real + (if half then 0.5 else 0.0), tail))
  {
    var marker: string := if half then [HALF] else [];
    var s := d + marker + w + tail;
    Slices(d, marker, w, tail);
    StartsWithPrefix(w, "hours", tail);
    if half {
      DigitSpanOfDigitsThen(d, marker + (w + tail), 10);
      HoursAtParts(s, |d|, half);
    } else {
      assert LowerChar(w[0]) == 'h';
      assert s[|d|] == w[0];
      DigitSpanOfDigitsThen(d, marker + (w + tail), 10);
      HoursAtParts(s, |d|, half);
    }
  }

  /** `<h>½?Hours` followed by anything is read as `h` (+ ½), and the rest is what follows it. */
  lemma {:induction false} HoursOfFragment(h: nat, half: bool, tail: string)
    ensures HoursAt(NatToDigits(h) + (if half then [HALF] else []) + "Hours" + tail)
         == Some((h as real + (if half then 0.5 else 0.0), tail))
  {
    LowerUnits();
    HoursOfDigits(NatToDigits(h), half, "Hours", tail);
    NatToDigitsValue(h);
  }

  /** `<m>Mins` followed by anything is read as `m` minutes. */
  lemma {:induction false} MinsOfFragment(m: nat, tail: string)
    ensures MinsAt(NatToDigits(m) + "Mins" + tail) == Some(m)
  {
    var d := NatToDigits(m);
    var s := d + "Mins" + tail;
    Slices3(d, "Mins", tail);
    DigitSpanOfDigitsThen(d, "Mins" + tail, 10);
    LowerUnits();
    StartsWithPrefix("Mins", "mins", tail);
    NatToDigitsValue(m);
  }

  /** A minutes fragment is not an hours fragment. */
  lemma {:induction false} NoHoursBeforeMins(m: nat, tail: string)
    ensures HoursAt(NatToDigits(m) + "Mins" + tail).None?
  {
    var d := NatToDigits(m);
    var s := d + "Mins" + tail;
    assert s == d + ("Mins" + tail);
    DigitSpanOfDigitsThen(d, "Mins" + tail, 10);
    assert s[|d|] == 'M';
    assert s[|d|..][0] == 'M';
  }

  /** Text that does not start with a digit holds neither fragment. */
  lemma {:induction false} NoFragmentWithoutDigit(t: string)
    requires t == [] || !IsDigit(t[0])
    ensures HoursAt(t).None? && MinsAt(t).None?
  {
    assert DigitSpan(t, 10) == 0;
  }

  predicate NoSpaces(s: string) {
    forall k :: 0 <= k < |s| ==> !IsSpace(s[k])
  }

  lemma {:induction false} NoSpacesAppend(a: string, b: string)
    requires NoSpaces(a) && NoSpaces(b)
    ensures NoSpaces(a + b)
  {
    forall k | 0 <= k < |a + b|
      ensures !IsSpace((a + b)[k])
    {
      if k < |a| {
        assert (a + b)[k] == a[k];
      } else {
        assert (a + b)[k] == b[k - |a|];
      }
    }
  }

  lemma {:induction false} NoSpacesInNumeral(n: nat)
    ensures NoSpaces(NatToDigits(n))
  {
  }

  lemma {:induction false} NoSpacesInFragment(name: string, hours: Option<(nat, bool)>, mins: Option<nat>)
    requires NoSpaces(name)
    ensures NoSpaces(Fragment(name, hours, mins))
  {
    if hours.Some? {
      var (h, half) := hours.value;
      NoSpacesInNumeral(h);
      NoSpacesAppend(NatToDigits(h), if half then [HALF] else []);
      NoSpacesAppend(NatToDigits(h) + (if half then [HALF] else []), "Hours");
    }
    if mins.Some? {
      NoSpacesInNumeral(mins.value);
      NoSpacesAppend(NatToDigits(mins.value), "Mins");
    }
    NoSpacesAppend(name, HoursText(hours));
    NoSpacesAppend(name + HoursText(hours), MinsText(mins));
  }

  /** Printable ASCII other than the space is not white space. */
  lemma {:induction false} NoSpacesInGraphic(s: string)
    requires forall k :: 0 <= k < |s| ==> '!' <= s[k] <= '~'
    ensures NoSpaces(s)
  {
  }

  lemma {:induction false} LabelsHaveNoSpaces(mode: PlayMode, alt: string)
    requires alt in DisplayLabels(mode)
    ensures NoSpaces(alt)
  {
    NoSpacesInGraphic(alt);
  }

  lemma {:induction false} RemoveSpacesOfFragment(mode: PlayMode, alt: string, hours: Option<(nat, bool)>,
                                mins: Option<nat>, rest: string)
    requires alt in DisplayLabels(mode)
    ensures RemoveSpaces(Fragment(alt, hours, mins) + rest) == Fragment(alt, hours, mins) + RemoveSpaces(rest)
  {
    var f := Fragment(alt, hours, mins);
    LabelsHaveNoSpaces(mode, alt);
    NoSpacesInFragment(alt, hours, mins);
    RemoveSpacesNoop(f);
    RemoveSpacesAppend(f, rest);
  }

  lemma {:induction false} FragmentAfterName(name: string, hours: Option<(nat, bool)>, mins: Option<nat>, r: string)
    ensures Fragment(name, hours, mins) + r == name + (HoursText(hours) + (MinsText(mins) + r))
  {
    AppendAssoc(name + HoursText(hours), MinsText(mins), r);
    AppendAssoc(name, HoursText(hours), MinsText(mins) + r);
  }

  /** Every label as the site writes it is found by its mode's pattern at the start of the text. */
  lemma {:induction false} DisplayLabelFound(mode: PlayMode, alt: string, tail: string)
    requires alt in DisplayLabels(mode)
    ensures LabelAt(Labels(mode), alt + tail) == Some(|alt|)
  {
    var s := alt + tail;
    LowerWords();
    StartsWithWord(alt, Lower(alt), tail);
    if mode == Main && alt == "Solo" {
      assert LowerChar(s[0]) == 's';
      assert !StartsWithIgnoringCase(s, "mainstory");
    }
  }

  /** No label of the mode starts within `p`, the text in front of `t`. */
  predicate NoLabelIn(mode: PlayMode, p: string, t: string) {
    forall k :: 0 <= k < |p| ==> LabelAt(Labels(mode), (p + t)[k..]).None?
  }

  /** Text none of whose characters can begin a label of the mode holds no label. */
  lemma {:induction false} NoLabelStartIn(mode: PlayMode, p: string, t: string)
    requires forall k, i :: 0 <= k < |p| && 0 <= i < |Labels(mode)| ==> LowerChar(p[k]) != Labels(mode)[i][0]
    ensures NoLabelIn(mode, p, t)
  {
    forall k | 0 <= k < |p|
      ensures LabelAt(Labels(mode), (p + t)[k..]).None?
    {
      assert (p + t)[k..][0] == p[k];
    }
  }

  /** The first label in the text is the one read, and reading continues right after it. */
  lemma {:induction false} LabelAfter(mode: PlayMode, p: string, alt: string, tail: string)
    requires alt in DisplayLabels(mode)
    requires NoLabelIn(mode, p, alt + tail)
    ensures AfterLabel(mode, p + (alt + tail)) == Some(tail)
  {
    var s := p + (alt + tail);
    Slices3(p, alt, tail);
    DisplayLabelFound(mode, alt, tail);
    var at := (t: string) => LabelAt(Labels(mode), t);
    assert at(s[|p|..]) == Some(|alt|);
    forall k | 0 <= k < |p|
      ensures at(s[k..]).None?
    {
    }
    LeftmostIs(s, at, 0, |p|, |alt|);
  }

  /** The fragments after a label are read back as the value they stand for. */
  lemma {:induction false} ReadFragments(hours: Option<(nat, bool)>, mins: Option<nat>, r: string)
    requires mins.None? ==> r == [] || !IsDigit(r[0])
    ensures ReadDuration(HoursText(hours) + (MinsText(mins) + r)) == FragmentValue(hours, mins)
  {
    var afterHours := MinsText(mins) + r;
    if mins.None? {
      assert afterHours == r;
      NoFragmentWithoutDigit(r);
    } else {
      MinsOfFragment(mins.value, r);
      NoHoursBeforeMins(mins.value, r);
    }
    var s := HoursText(hours) + afterHours;
    if hours.Some? {
      HoursOfText(hours, afterHours);
    } else {
      assert s == afterHours;
    }
    ReadDurationOf(s, HoursValue(hours), afterHours, mins);
  }

  /** A written `<h>½?Hours` is read back as its value, with the text after it left over. */
  lemma {:induction false} HoursOfText(hours: Option<(nat, bool)>, tail: string)
    requires hours.Some?
    ensures HoursAt(HoursText(hours) + tail) == Some((HoursValue(hours), tail))
  {
    var (h, half) := hours.value;
    HoursOfFragment(h, half, tail);
  }

  /** The duration read is the hours found plus the minutes found after them. */
  lemma {:induction false} ReadDurationOf(s: string, h: real, afterHours: string, mins: Option<nat>)
    requires HoursAt(s) == Some((h, afterHours)) || (h == 0.0 && HoursAt(s).None? && afterHours == s)
    requires MinsAt(afterHours) == mins
    ensures ReadDuration(s) == h + (match mins case None => 0.0 case Some(m) => m as real / 60.0)
  {
  }

  /**
   * The duration fragments written after the first label of the mode are read
   * back exactly: hours, plus ½ when marked, plus minutes/60. The text in front
   * (the game's title, say) may be anything in which no label of the mode
   * starts; anything after the fragment is ignored, including later labels.
   * Without a minutes fragment the text after it must not continue with a
   * digit, or that digit run is read on.
   */
  lemma {:induction false} ParseFragment(mode: PlayMode, pre: string, alt: string, hours: Option<(nat, bool)>,
                                         mins: Option<nat>, rest: string)
    requires alt in DisplayLabels(mode)
    requires mins.None? ==> RemoveSpaces(rest) == [] || !IsDigit(RemoveSpaces(rest)[0])
    requires NoLabelIn(mode, RemoveSpaces(pre), Fragment(alt, hours, mins) + RemoveSpaces(rest))
    ensures ParseRelativeTimes(mode, pre + Fragment(alt, hours, mins) + rest) == FragmentValue(hours, mins)
  {
    var f := Fragment(alt, hours, mins);
    var r := RemoveSpaces(rest);
    AppendAssoc(pre, f, rest);
    RemoveSpacesAppend(pre, f + rest);
    RemoveSpacesOfFragment(mode, alt, hours, mins, rest);
    var tail := HoursText(hours) + (MinsText(mins) + r);
    FragmentAfterName(alt, hours, mins, r);
    LabelAfter(mode, RemoveSpaces(pre), alt, tail);
    ReadFragments(hours, mins, r);
  }

  /** Text with no label of the mode anywhere (once white space is removed) reads as 0 hours. */
  lemma {:induction false} NoLabelNoDuration(mode: PlayMode, text: string)
    requires forall k :: 0 <= k < |RemoveSpaces(text)| ==> LabelAt(Labels(mode), RemoveSpaces(text)[k..]).None?
    ensures ParseRelativeTimes(mode, text) == 0.0
  {
  }

  /** The duration does not depend on white space: removing it first changes nothing. */
  lemma {:induction false} SpacesIgnored(mode: PlayMode, text: string)
    ensures ParseRelativeTimes(mode, text) == ParseRelativeTimes(mode, RemoveSpaces(text))
  {
    RemoveSpacesNoop(RemoveSpaces(text));
  }

  /** A space between two texts is dropped along with the white space inside them. */
  lemma {:induction false} SpaceDropped(a: string, b: string)
    ensures RemoveSpaces(a + " " + b) == RemoveSpaces(a) + RemoveSpaces(b)
  {
    RemoveSpacesAppend(a + " ", b);
    RemoveSpacesAppend(a, " ");
    assert RemoveSpaces(" ") == [];
  }

  /** `Portal Main Story 8½ Hours`, as the site writes it: the title is skipped and the time is 8.5 hours. */
  lemma {:induction false} EightAndAHalfHours(rest: string)
    requires RemoveSpaces(rest) == [] || !IsDigit(RemoveSpaces(rest)[0])
    ensures ParseRelativeTimes(Main, "Portal Main Story 8" + [HALF] + " Hours" + rest) == 8.5
  {
    var text := "Portal Main Story 8" + [HALF] + " Hours" + rest;
    var r := RemoveSpaces(rest);
    var f := Fragment("MainStory", Some((8, true)), None);
    SpacesIgnored(Main, text);
    EightAndAHalfText(rest);
    RemoveSpacesNoop(r);
    TitleWithoutLabel(f + r);
    ParseFragment(Main, "Portal", "MainStory", Some((8, true)), None, r);
  }

  /** Without its white space the example is the title, then the fragment for 8½ hours, then the rest. */
  lemma {:induction false} EightAndAHalfText(rest: string)
    ensures RemoveSpaces("Portal Main Story 8" + [HALF] + " Hours" + rest)
         == "Portal" + Fragment("MainStory", Some((8, true)), None) + RemoveSpaces(rest)
  {
    RemoveSpacesAppend("Portal Main Story 8" + [HALF] + " Hours", rest);
    EightAndAHalfSpaced();
    EightAndAHalfFragment();
  }

  /** The white space of the example sits between its five words. */
  lemma {:induction false} EightAndAHalfSpaced()
    ensures RemoveSpaces("Portal Main Story 8" + [HALF] + " Hours") == "Portal" + "Main" + "Story" + ("8" + [HALF]) + "Hours"
  {
    var eight := "8" + [HALF];
    assert "Portal Main Story 8" + [HALF] + " Hours" == "Portal" + " " + "Main" + " " + "Story" + " " + eight + " " + "Hours";
    NoSpacesInGraphic("Portal");
    NoSpacesInGraphic("Main");
    NoSpacesInGraphic("Story");
    NoSpacesInGraphic("Hours");
    assert NoSpaces(eight);
    FiveWords("Portal", "Main", "Story", eight, "Hours");
  }

  /** Words without white space, separated by single spaces, are joined up by the removal. */
  lemma {:induction false} FiveWords(a: string, b: string, c: string, d: string, e: string)
    requires NoSpaces(a) && NoSpaces(b) && NoSpaces(c) && NoSpaces(d) && NoSpaces(e)
    ensures RemoveSpaces(a + " " + b + " " + c + " " + d + " " + e) == a + b + c + d + e
  {
    SpaceDropped(a + " " + b + " " + c + " " + d, e);
    SpaceDropped(a + " " + b + " " + c, d);
    SpaceDropped(a + " " + b, c);
    ThreeWords(a, b, c);
    RemoveSpacesNoop(d);
    RemoveSpacesNoop(e);
  }

  /** The same for three words. */
  lemma {:induction false} ThreeWords(a: string, b: string, c: string)
    requires NoSpaces(a) && NoSpaces(b) && NoSpaces(c)
    ensures RemoveSpaces(a + " " + b + " " + c) == a + b + c
  {
    SpaceDropped(a + " " + b, c);
    SpaceDropped(a, b);
    RemoveSpacesNoop(a);
    RemoveSpacesNoop(b);
    RemoveSpacesNoop(c);
  }

  /** The fragment for 8½ hours after the Main Story label. */
  lemma {:induction false} EightAndAHalfFragment()
    ensures Fragment("MainStory", Some((8, true)), None) == "Main" + "Story" + ("8" + [HALF]) + "Hours"
  {
    assert NatToDigits(8) == "8";
  }

  /** The title `Portal` holds no letter a Main Story or Solo label begins with. */
  lemma {:induction false} TitleWithoutLabel(t: string)
    ensures NoLabelIn(Main, RemoveSpaces("Portal"), t)
  {
    NoSpacesInGraphic("Portal");
    RemoveSpacesNoop("Portal");
    NoLabelStartIn(Main, "Portal", t);
  }

  /** `Vs. 30 Mins`, as the site writes it, at the start of the text is half an hour, whatever follows. */
  lemma {:induction false} ThirtyMinutes(rest: string)
    ensures ParseRelativeTimes(Multi, "Vs. 30 Mins" + rest) == 0.5
  {
    var text := "Vs. 30 Mins" + rest;
    var r := RemoveSpaces(rest);
    var f := Fragment("Vs.", None, Some(30));
    SpacesIgnored(Multi, text);
    ThirtyMinutesText(rest);
    assert "" + f + r == f + r;
    assert RemoveSpaces("") == [];
    ParseFragment(Multi, "", "Vs.", None, Some(30), r);
  }

  /** Without its white space the example is the fragment for 30 minutes, then the rest. */
  lemma {:induction false} ThirtyMinutesText(rest: string)
    ensures RemoveSpaces("Vs. 30 Mins" + rest) == Fragment("Vs.", None, Some(30)) + RemoveSpaces(rest)
  {
    RemoveSpacesAppend("Vs. 30 Mins", rest);
    ThirtyMinutesSpaced();
    ThirtyMinutesFragment();
  }

  /** The white space of the example sits between its three words. */
  lemma {:induction false} ThirtyMinutesSpaced()
    ensures RemoveSpaces("Vs. 30 Mins") == "Vs." + "30" + "Mins"
  {
    assert "Vs. 30 Mins" == "Vs." + " " + "30" + " " + "Mins";
    NoSpacesInGraphic("Vs.");
    NoSpacesInGraphic("30");
    NoSpacesInGraphic("Mins");
    ThreeWords("Vs.", "30", "Mins");
  }

  /** The fragment for 30 minutes after the Vs. label. */
  lemma {:induction false} ThirtyMinutesFragment()
    ensures Fragment("Vs.", None, Some(30)) == "Vs." + "30" + "Mins"
  {
    assert NatToDigits(3) == "3";
    assert NatToDigits(30) == "30";
  }
}

=== FILE: formencoding.dfy ===
/**
 * The `application/x-www-form-urlencoded` format of the WHATWG URL Standard,
 * which `URLSearchParams.prototype.toString` produces: the serializer of
 * section 5.2 and, as its partner, the parser of section 5.1.
 */
module FormEncoding {
  import opened Wrappers
  import opened JsString

  type byte = b: int | 0 <= b < 256

  // ---------------------------------------------------------------------------
  // UTF-8

  /** A Unicode scalar value: a code point that is not a surrogate. */
  predicate IsScalar(n: int) {
    0 <= n < 0xD800 || 0xE000 <= n < 0x11_0000
  }

  /** The UTF-8 encoding of one character. */
  function Utf8(c: char): (bs: seq<byte>)
    ensures 1 <= |bs| <= 4
  {
    var cp := c as int;
    if cp < 0x80 then [cp]
    else if cp < 0x800 then [0xC0 + cp / 64, 0x80 + cp % 64]
    else if cp < 0x1_0000 then [0xE0 + cp / 4096, 0x80 + (cp / 64) % 64, 0x80 + cp % 64]
    else [0xF0 + cp / 262144, 0x80 + (cp / 4096) % 64, 0x80 + (cp / 64) % 64, 0x80 + cp % 64]
  }

  /** The UTF-8 encoding of a string. */
  function Utf8Encode(s: string): seq<byte> {
    if s == [] then [] else Utf8(s[0]) + Utf8Encode(s[1..])
  }

  /** How many bytes the sequence a lead byte starts has; 0 when the byte cannot start one. */
  function SequenceLength(lead: byte): nat {
    if lead < 0x80 then 1
    else if 0xC0 <= lead < 0xE0 then 2
    else if 0xE0 <= lead < 0xF0 then 3
    else if 0xF0 <= lead < 0xF8 then 4
    else 0
  }

  predicate IsContinuation(b: byte) {
    0x80 <= b < 0xC0
  }

  /** The code point of a sequence, from the payload bits of its bytes. */
  function CodePoint(bs: seq<byte>): int
    requires 1 <= |bs| <= 4
  {
    var b: seq<int> := bs;
    if |b| == 1 then b[0]
    else if |b| == 2 then (b[0] - 0xC0) * 64 + (b[1] - 0x80)
    else if |b| == 3 then (b[0] - 0xE0) * 4096 + (b[1] - 0x80) * 64 + (b[2] - 0x80)
    else (b[0] - 0xF0) * 262144 + (b[1] - 0x80) * 4096 + (b[2] - 0x80) * 64 + (b[3] - 0x80)
  }

  /** The sequence at the front of `bs` is well formed and `n` bytes long. */
  predicate WellFormedAt(bs: seq<byte>, n: nat) {
    && 1 <= n <= |bs|
    && SequenceLength(bs[0]) == n
    && (forall k :: 1 <= k < n ==> IsContinuation(bs[k]))
    && IsScalar(CodePoint(bs[..n]))
  }

  /** UTF-8 decoding that rejects malformed input. */
  function Utf8Decode(bs: seq<byte>): Option<string>
    decreases |bs|
  {
    if bs == [] then Some([])
    else
      var n := SequenceLength(bs[0]);
      if !WellFormedAt(bs, n) then None
      else
        match Utf8Decode(bs[n..])
        case None => None
        case Some(rest) => Some([CodePoint(bs[..n]) as char] + rest)
  }

  /** A two-byte sequence: its lead byte, its continuation byte and its code point. */
  lemma {:induction false} TwoBytes(cp: int)
    requires 0x80 <= cp < 0x800
    ensures SequenceLength(0xC0 + cp / 64) == 2 && IsContinuation(0x80 + cp % 64)
    ensures CodePoint([0xC0 + cp / 64, 0x80 + cp % 64]) == cp
  {
    assert cp == (cp / 64) * 64 + cp % 64;
  }

  /** A three-byte sequence: its lead byte, its continuation bytes and its code point. */
  lemma {:induction false} ThreeBytes(cp: int)
    requires 0x800 <= cp < 0x1_0000
    ensures SequenceLength(0xE0 + cp / 4096) == 3
    ensures IsContinuation(0x80 + (cp / 64) % 64) && IsContinuation(0x80 + cp % 64)
    ensures CodePoint([0xE0 + cp / 4096, 0x80 + (cp / 64) % 64, 0x80 + cp % 64]) == cp
  {
    assert cp / 64 == (cp / 4096) * 64 + (cp / 64) % 64;
    assert cp == (cp / 64) * 64 + cp % 64;
  }

  /** A four-byte sequence: its lead byte, its continuation bytes and its code point. */
  lemma {:induction false} FourBytes(cp: int)
    requires 0x1_0000 <= cp < 0x11_0000
    ensures SequenceLength(0xF0 + cp / 262144) == 4
    ensures IsContinuation(0x80 + (cp / 4096) % 64) && IsContinuation(0x80 + (cp / 64) % 64)
    ensures IsContinuation(0x80 + cp % 64)
    ensures CodePoint([0xF0 + cp / 262144, 0x80 + (cp / 4096) % 64, 0x80 + (cp / 64) % 64, 0x80 + cp % 64]) == cp
  {
    assert cp / 4096 == (cp / 262144) * 64 + (cp / 4096) % 64;
    assert cp / 64 == (cp / 4096) * 64 + (cp / 64) % 64;
    assert cp == (cp / 64) * 64 + cp % 64;
  }

  /** The bytes of one character are a well-formed sequence carrying its code point. */
  lemma {:induction false} Utf8Char(c: char)
    ensures WellFormedAt(Utf8(c), |Utf8(c)|) && CodePoint(Utf8(c)) == c as int
  {
    var cp := c as int;
    var bs := Utf8(c);
    assert bs[..|bs|] == bs;
    if cp < 0x80 {
    } else if cp < 0x800 {
      TwoBytes(cp);
    } else if cp < 0x1_0000 {
      ThreeBytes(cp);
    } else {
      FourBytes(cp);
    }
  }

  /** Decoding a character's bytes in front of others yields the character in front. */
  lemma {:induction false} Utf8DecodeChar(c: char, rest: seq<byte>)
    ensures Utf8Decode(Utf8(c) + rest) ==
      match Utf8Decode(rest) case None => None case Some(s) => Some([c] + s)
  {
    var bs := Utf8(c) + rest;
    var n := |Utf8(c)|;
    Utf8Char(c);
    assert bs[..n] == Utf8(c);
    assert bs[n..] == rest;
    assert WellFormedAt(bs, n);
  }

  /** Decoding undoes encoding. */
  lemma {:induction false} Utf8RoundTrip(s: string)
    ensures Utf8Decode(Utf8Encode(s)) == Some(s)
    decreases |s|
  {
    if s != [] {
      Utf8RoundTrip(s[1..]);
      Utf8DecodeChar(s[0], Utf8Encode(s[1..]));
      assert [s[0]] + s[1..] == s;
    }
  }

  // ---------------------------------------------------------------------------
  // Percent-encoding

  const HEX_DIGITS := "0123456789ABCDEF"

  /** `%` followed by the byte in two upper-case hexadecimal digits. */
  function PercentByte(b: byte): (t: string)
    ensures |t| == 3 && t[0] == '%'
  {
    ['%', HEX_DIGITS[b / 16], HEX_DIGITS[b % 16]]
  }

  function PercentBytes(bs: seq<byte>): (t: string)
    ensures |t| == 3 * |bs|
  {
    if bs == [] then [] else PercentByte(bs[0]) + PercentBytes(bs[1..])
  }

  /** The characters the serializer leaves as they are: ASCII alphanumerics and `*-._`. */
  predicate IsUnreserved(c: char) {
    ('a' <= c <= 'z') || ('A' <= c <= 'Z') || ('0' <= c <= '9') || c == '*' || c == '-' || c == '.' || c == '_'
  }

  /** One character, serialized: unreserved as itself, space as `+`, anything else as its percent-encoded UTF-8 bytes. */
  function EncodeChar(c: char): (t: string)
    ensures |t| == 1 <==> IsUnreserved(c) || c == ' '
    ensures |t| != 1 ==> 3 <= |t| <= 12 && t[0] == '%'
  {
    if IsUnreserved(c) then [c]
    else if c == ' ' then "+"
    else PercentBytes(Utf8(c))
  }

  /** A name or value, serialized character by character. */
  function Encode(s: string): (t: string)
    ensures |s| <= |t| <= 12 * |s|
  {
    if s == [] then [] else EncodeChar(s[0]) + Encode(s[1..])
  }

  /** Only unreserved characters, `+` and `%` appear in serialized text. */
  predicate IsEncodedChar(c: char) {
    IsUnreserved(c) || c == '+' || c == '%'
  }

  /** Every character of `t` is one the serializer can produce. */
  predicate AllEncoded(t: string) {
    forall k :: 0 <= k < |t| ==> IsEncodedChar(t[k])
  }

  lemma {:induction false} AllEncodedAppend(a: string, b: string)
    requires AllEncoded(a) && AllEncoded(b)
    ensures AllEncoded(a + b)
  {
    forall k | 0 <= k < |a + b|
      ensures IsEncodedChar((a + b)[k])
    {
      if k < |a| {
        assert (a + b)[k] == a[k];
      } else {
        assert (a + b)[k] == b[k - |a|];
      }
    }
  }

  lemma {:induction false} PercentBytesAlphabet(bs: seq<byte>)
    ensures AllEncoded(PercentBytes(bs))
    decreases |bs|
  {
    if bs != [] {
      PercentBytesAlphabet(bs[1..]);
      var h := PercentByte(bs[0]);
      assert forall k :: 0 <= k < 3 ==> IsEncodedChar(h[k]);
      AllEncodedAppend(h, PercentBytes(bs[1..]));
    }
  }

  lemma {:induction false} EncodeCharAlphabet(c: char)
    ensures AllEncoded(EncodeChar(c))
  {
    if !IsUnreserved(c) && c != ' ' {
      PercentBytesAlphabet(Utf8(c));
    }
  }

  /** Neither delimiter is among the characters the serializer produces. */
  lemma {:induction false} NoDelimiters(t: string)
    requires AllEncoded(t)
    ensures '&' !in t && '=' !in t
  {
  }

  /** Serialized text contains neither `&` nor `=`, the two delimiters of the format. */
  lemma {:induction false} EncodeAlphabet(s: string)
    ensures AllEncoded(Encode(s))
    ensures '&' !in Encode(s) && '=' !in Encode(s)
    decreases |s|
  {
    if s != [] {
      EncodeAlphabet(s[1..]);
      EncodeCharAlphabet(s[0]);
      AllEncodedAppend(EncodeChar(s[0]), Encode(s[1..]));
    }
    NoDelimiters(Encode(s));
  }

  /** A string of unreserved characters serializes to itself. */
  lemma {:induction false} EncodeUnreserved(s: string)
    requires forall k :: 0 <= k < |s| ==> IsUnreserved(s[k])
    ensures Encode(s) == s
    decreases |s|
  {
    if s != [] {
      EncodeUnreserved(s[1..]);
      assert [s[0]] + s[1..] == s;
    }
  }

  /** Serializing works character by character, so it distributes over concatenation. */
  lemma {:induction false} EncodeAppend(a: string, b: string)
    ensures Encode(a + b) == Encode(a) + Encode(b)
    decreases |a|
  {
    if a != [] {
      assert Encode(a + b) == EncodeChar(a[0]) + Encode(a[1..] + b) by {
        assert (a + b)[0] == a[0];
        assert (a + b)[1..] == a[1..] + b;
      }
      EncodeAppend(a[1..], b);
      AppendAssoc(EncodeChar(a[0]), Encode(a[1..]), Encode(b));
    } else {
      assert a + b == b;
    }
  }

  // ---------------------------------------------------------------------------
  // Decoding

  function HexValue(c: char): Option<nat> {
    if '0' <= c <= '9' then Some(c as int - '0' as int)
    else if 'A' <= c <= 'F' then Some(c as int - 'A' as int + 10)
    else if 'a' <= c <= 'f' then Some(c as int - 'a' as int + 10)
    else None
  }

  /**
   * Percent-decoding after `+` has been replaced by a space: a `%` and two
   * hexadecimal digits give that byte, any other character its UTF-8 bytes.
   */
  function PercentDecode(t: string): seq<byte>
    decreases |t|
  {
    if t == [] then []
    else if t[0] == '+' then [0x20] + PercentDecode(t[1..])
    else if t[0] == '%' && |t| >= 3 && HexValue(t[1]).Some? && HexValue(t[2]).Some? then
      [HexValue(t[1]).value * 16 + HexValue(t[2]).value] + PercentDecode(t[3..])
    else Utf8(t[0]) + PercentDecode(t[1..])
  }

  /** A name or value: percent-decoded, then UTF-8 decoded. */
  function Decode(t: string): Option<string> {
    Utf8Decode(PercentDecode(t))
  }

  lemma {:induction false} HexDigitValue(n: nat)
    requires n < 16
    ensures HexValue(HEX_DIGITS[n]) == Some(n)
  {
  }

  lemma {:induction false} PercentDecodeByte(b: byte, rest: string)
    ensures PercentDecode(PercentByte(b) + rest) == [b] + PercentDecode(rest)
  {
    var t := PercentByte(b) + rest;
    HexDigitValue(b / 16);
    HexDigitValue(b % 16);
    assert t[1] == HEX_DIGITS[b / 16] && t[2] == HEX_DIGITS[b % 16];
    assert t[3..] == rest;
    assert b == (b / 16) * 16 + b % 16;
    assert PercentDecode(t) == [HexValue(t[1]).value * 16 + HexValue(t[2]).value] + PercentDecode(t[3..]);
  }

  lemma {:induction false} PercentDecodeBytes(bs: seq<byte>, rest: string)
    ensures PercentDecode(PercentBytes(bs) + rest) == bs + PercentDecode(rest)
    decreases |bs|
  {
    if bs == [] {
      assert PercentBytes(bs) + rest == rest;
    } else {
      var tail := PercentBytes(bs[1..]) + rest;
      AppendAssoc(PercentByte(bs[0]), PercentBytes(bs[1..]), rest);
      PercentDecodeByte(bs[0], tail);
      PercentDecodeBytes(bs[1..], rest);
      AppendAssoc([bs[0]], bs[1..], PercentDecode(rest));
      assert [bs[0]] + bs[1..] == bs;
    }
  }

  /** Percent-decoding serialized text gives the UTF-8 bytes of what was serialized. */
  lemma {:induction false} PercentDecodeEncode(s: string)
    ensures PercentDecode(Encode(s)) == Utf8Encode(s)
    decreases |s|
  {
    if s != [] {
      var c := s[0];
      PercentDecodeEncode(s[1..]);
      if IsUnreserved(c) || c == ' ' {
        var t := Encode(s);
        assert t == EncodeChar(c) + Encode(s[1..]);
        assert t[1..] == Encode(s[1..]);
      } else {
        PercentDecodeBytes(Utf8(c), Encode(s[1..]));
      }
    }
  }

  /** Decoding undoes serializing. */
  lemma {:induction false} DecodeEncode(s: string)
    ensures Decode(Encode(s)) == Some(s)
  {
    PercentDecodeEncode(s);
    Utf8RoundTrip(s);
  }

  // ---------------------------------------------------------------------------
  // Lists of name-value pairs

  /** `name=value`, both serialized. */
  function EncodePair(p: (string, string)): string {
    Encode(p.0) + "=" + Encode(p.1)
  }

  function EncodePairs(pairs: seq<(string, string)>): (parts: seq<string>)
    ensures |parts| == |pairs| && forall i :: 0 <= i < |pairs| ==> parts[i] == EncodePair(pairs[i])
  {
    seq(|pairs|, i requires 0 <= i < |pairs| => EncodePair(pairs[i]))
  }

  /** The serializer: the serialized pairs joined with `&`; no pairs give the empty string. */
  function Serialize(pairs: seq<(string, string)>): (r: string)
    ensures r == [] <==> pairs == []
  {
    if pairs == [] then "" else Join(EncodePairs(pairs), "&")
  }

  /** One `&`-separated sequence: the name up to the first `=` and the value after it, or the whole as name. */
  function ParsePair(piece: string): Option<(string, string)> {
    var cut := IndexOf(piece, "=", 0);
    var name := if cut.Some? then piece[..cut.value] else piece;
    var value := if cut.Some? then piece[cut.value + 1..] else "";
    match (Decode(name), Decode(value))
    case (Some(n), Some(v)) => Some((n, v))
    case _ => None
  }

  function ParsePieces(pieces: seq<string>): Option<seq<(string, string)>> {
    if pieces == [] then Some([])
    else
      match ParsePieces(pieces[1..])
      case None => None
      case Some(rest) =>
        if pieces[0] == [] then Some(rest)
        else
          match ParsePair(pieces[0])
          case None => None
          case Some(p) => Some([p] + rest)
  }

  /** The parser: the `&`-separated sequences, empty ones skipped, each decoded into a pair. */
  function Parse(t: string): Option<seq<(string, string)>> {
    ParsePieces(Split(t, "&"))
  }

  lemma {:induction false} ParsePairEncoded(p: (string, string))
    ensures EncodePair(p) != [] && ParsePair(EncodePair(p)) == Some(p)
  {
    var piece := EncodePair(p);
    var n := Encode(p.0);
    EncodeAlphabet(p.0);
    assert OccursAt(piece, "=", |n|) by {
      assert piece[|n|..|n| + 1] == "=";
    }
    forall k | 0 <= k < |n|
      ensures !OccursAt(piece, "=", k)
    {
      assert piece[k..k + 1] == [n[k]];
    }
    IndexOfFirst(piece, "=", |n|);
    assert piece[..|n|] == n;
    assert piece[|n| + 1..] == Encode(p.1);
    DecodeEncode(p.0);
    DecodeEncode(p.1);
  }

  lemma {:induction false} ParsePiecesEncoded(pairs: seq<(string, string)>)
    ensures ParsePieces(EncodePairs(pairs)) == Some(pairs)
    decreases |pairs|
  {
    if pairs != [] {
      ParsePiecesEncoded(pairs[1..]);
      assert EncodePairs(pairs)[1..] == EncodePairs(pairs[1..]);
      ParsePairEncoded(pairs[0]);
      assert [pairs[0]] + pairs[1..] == pairs;
    }
  }

  /** Splitting serialized pairs on `&` gives back one `name=value` piece per pair, in order. */
  lemma {:induction false} SerializedPieces(pairs: seq<(string, string)>)
    requires pairs != []
    ensures Split(Serialize(pairs), "&") == EncodePairs(pairs)
  {
    var parts := EncodePairs(pairs);
    forall i | 0 <= i < |parts|
      ensures '&' !in parts[i]
    {
      EncodeAlphabet(pairs[i].0);
      EncodeAlphabet(pairs[i].1);
      assert parts[i] == Encode(pairs[i].0) + "=" + Encode(pairs[i].1);
    }
    SplitJoin(parts, '&');
  }

  /** Parsing undoes serializing: every list of pairs comes back, in order. */
  lemma {:induction false} ParseSerialize(pairs: seq<(string, string)>)
    ensures Parse(Serialize(pairs)) == Some(pairs)
  {
    if pairs == [] {
      assert Split("", "&") == [""];
    } else {
      SerializedPieces(pairs);
      ParsePiecesEncoded(pairs);
    }
  }
}

=== FILE: jsstring.dfy ===
/**
 * The JavaScript string built-ins the parsers rely on, over `seq<char>`:
 * `split`, `trim`, `replace` with a string pattern, `toLowerCase`, `parseInt`,
 * the `||` default for strings, and removal of every `\s` character.
 */
module JsString {
  import opened Wrappers

  /** ECMAScript WhiteSpace and LineTerminator: the regex class `\s`, and what `trim` and `parseInt` skip. */
  predicate IsSpace(c: char) {
    c == ' ' || ('\t' <= c <= '\r') || c == '\U{A0}' || c == '\U{1680}'
    || ('\U{2000}' <= c <= '\U{200A}') || c == '\U{2028}' || c == '\U{2029}'
    || c == '\U{202F}' || c == '\U{205F}' || c == '\U{3000}' || c == '\U{FEFF}'
  }

  /** `s || d` for a string: the empty string is falsy. */
  function OrElse(s: string, d: string): (r: string)
    ensures r != [] <== s != [] || d != []
  {
    if s == [] then d else s
  }

  // ---------------------------------------------------------------------------
  // Searching

  predicate OccursAt(s: string, pat: string, k: nat) {
    k + |pat| <= |s| && s[k..k + |pat|] == pat
  }

  /** The leftmost index at or after `from` where `pat` occurs in `s` (`indexOf`). */
  function IndexOf(s: string, pat: string, from: nat): (r: Option<nat>)
    ensures r.Some? ==> from <= r.value && OccursAt(s, pat, r.value)
    ensures r.Some? ==> forall k :: from <= k < r.value ==> !OccursAt(s, pat, k)
    ensures r.None? ==> forall k :: from <= k ==> !OccursAt(s, pat, k)
    decreases |s| - from
  {
    if from + |pat| > |s| then None
    else if OccursAt(s, pat, from) then Some(from)
    else IndexOf(s, pat, from + 1)
  }

  /** An occurrence with none before it is the one `IndexOf` finds. */
  lemma {:induction false} IndexOfFirst(s: string, pat: string, at: nat)
    requires OccursAt(s, pat, at)
    requires forall k :: 0 <= k < at ==> !OccursAt(s, pat, k)
    ensures IndexOf(s, pat, 0) == Some(at)
  {
  }

  /** `s.replace(pat, rep)` with a string pattern: only the first occurrence is replaced. */
  function ReplaceFirst(s: string, pat: string, rep: string): (r: string)
    requires pat != []
    ensures IndexOf(s, pat, 0).None? ==> r == s
    ensures IndexOf(s, pat, 0).Some? ==> |r| == |s| - |pat| + |rep|
    ensures IndexOf(s, pat, 0).Some? ==>
      var k := IndexOf(s, pat, 0).value;
      r == s[..k] + rep + s[k + |pat|..]
  {
    match IndexOf(s, pat, 0)
    case None => s
    case Some(k) => s[..k] + rep + s[k + |pat|..]
  }

  // ---------------------------------------------------------------------------
  // split and its inverse

  /** `s.split(sep)` for a non-empty separator: the pieces between the occurrences found left to right. */
  function Split(s: string, sep: string): (parts: seq<string>)
    requires sep != []
    ensures |parts| >= 1
    decreases |s|
  {
    match IndexOf(s, sep, 0)
    case None => [s]
    case Some(k) => [s[..k]] + Split(s[k + |sep|..], sep)
  }

  /** A character is found only where it occurs, so a string without the separator is one piece. */
  lemma {:induction false} SplitWithout(s: string, c: char)
    ensures IndexOf(s, [c], 0).Some? ==> c in s
    ensures c !in s ==> Split(s, [c]) == [s]
  {
    if IndexOf(s, [c], 0).Some? {
      var k := IndexOf(s, [c], 0).value;
      assert s[k..k + 1][0] == s[k];
    }
  }

  /** `parts.join(sep)`. */
  function Join(parts: seq<string>, sep: string): string
    requires |parts| >= 1
  {
    if |parts| == 1 then parts[0] else parts[0] + sep + Join(parts[1..], sep)
  }

  /** `parts.pop()` on a non-empty array: its last element. */
  function Last(parts: seq<string>): string
    requires |parts| >= 1
  {
    parts[|parts| - 1]
  }

  /** Joining the pieces with the separator gives back the string. */
  lemma {:induction false} JoinSplit(s: string, sep: string)
    requires sep != []
    ensures Join(Split(s, sep), sep) == s
    decreases |s|
  {
    match IndexOf(s, sep, 0)
    case None =>
    case Some(k) =>
      var rest := s[k + |sep|..];
      assert Join(Split(s, sep), sep) == s[..k] + sep + Join(Split(rest, sep), sep) by {
        var parts := Split(s, sep);
        assert parts == [s[..k]] + Split(rest, sep);
        assert parts[0] == s[..k] && parts[1..] == Split(rest, sep);
      }
      JoinSplit(rest, sep);
      Around(s, k, sep);
  }

  /** A string is what comes before an occurrence, the occurrence, and what comes after. */
  lemma {:induction false} Around(s: string, k: nat, pat: string)
    requires OccursAt(s, pat, k)
    ensures s == s[..k] + pat + s[k + |pat|..]
  {
  }

  /** A one-character separator that no piece contains splits the joined pieces back apart. */
  lemma {:induction false} SplitJoin(parts: seq<string>, c: char)
    requires |parts| >= 1 && forall i :: 0 <= i < |parts| ==> c !in parts[i]
    ensures Split(Join(parts, [c]), [c]) == parts
    decreases |parts|
  {
    var s := Join(parts, [c]);
    if |parts| == 1 {
      forall k | 0 <= k
        ensures !OccursAt(s, [c], k)
      {
        if k < |s| {
          assert s[k..k + 1] == [s[k]];
        }
      }
    } else {
      var first := parts[0];
      var rest := Join(parts[1..], [c]);
      assert s == first + [c] + rest;
      assert OccursAt(s, [c], |first|) by {
        assert s[|first|..|first| + 1] == [c];
      }
      forall k | 0 <= k < |first|
        ensures !OccursAt(s, [c], k)
      {
        assert s[k..k + 1] == [first[k]];
      }
      IndexOfFirst(s, [c], |first|);
      assert s[..|first|] == first;
      assert s[|first| + 1..] == rest;
      SplitJoin(parts[1..], c);
    }
  }

  /** No piece contains the separator. */
  lemma {:induction false} SplitPiecesAreFree(s: string, sep: string, i: nat)
    requires sep != [] && i < |Split(s, sep)|
    ensures IndexOf(Split(s, sep)[i], sep, 0).None?
    decreases |s|
  {
    match IndexOf(s, sep, 0)
    case None =>
    case Some(k) =>
      assert Split(s, sep) == [s[..k]] + Split(s[k + |sep|..], sep);
      if i == 0 {
        var p := s[..k];
        forall j | 0 <= j
          ensures !OccursAt(p, sep, j)
        {
          if OccursAt(p, sep, j) {
            assert s[j..j + |sep|] == p[j..j + |sep|];
            assert OccursAt(s, sep, j);
          }
        }
      } else {
        SplitPiecesAreFree(s[k + |sep|..], sep, i - 1);
      }
  }

  /** With a one-character separator, the last piece of `s + [c] + d` is `d` when `d` has no `c`. */
  lemma {:induction false} LastPieceAfter(s: string, c: char, d: string)
    requires c !in d
    ensures Last(Split(s + [c] + d, [c])) == d
    decreases |s|
  {
    var t := s + [c] + d;
    assert OccursAt(t, [c], |s|) by {
      assert t[|s|..|s| + 1] == [c];
    }
    var k := IndexOf(t, [c], 0).value;
    assert Last(Split(t, [c])) == Last(Split(t[k + 1..], [c])) by {
      assert Split(t, [c]) == [t[..k]] + Split(t[k + 1..], [c]);
    }
    if k < |s| {
      assert t[k + 1..] == s[k + 1..] + [c] + d by {
        Slices3(s, [c], d);
      }
      LastPieceAfter(s[k + 1..], c, d);
    } else {
      assert t[k + 1..] == d by {
        Slices3(s, [c], d);
      }
      assert IndexOf(d, [c], 0).None? by {
        forall j | 0 <= j
          ensures !OccursAt(d, [c], j)
        {
          if j < |d| {
            assert d[j..j + 1] == [d[j]];
          }
        }
      }
    }
  }

  /** The pieces of three concatenated strings, recovered by slicing. */
  lemma {:induction false} Slices3<T>(a: seq<T>, b: seq<T>, c: seq<T>)
    ensures a + b + c == a + (b + c)
    ensures (a + b + c)[..|a|] == a
    ensures (a + b + c)[|a|..] == b + c
    ensures (a + b + c)[|a| + |b|..] == c
  {
  }

  // ---------------------------------------------------------------------------
  // trim

  /** Leading `\s` characters removed. */
  function TrimStart(s: string): (r: string)
    ensures |r| <= |s|
    ensures r == [] || !IsSpace(r[0])
    ensures forall k :: 0 <= k < |s| - |r| ==> IsSpace(s[k])
  {
    if s != [] && IsSpace(s[0]) then TrimStart(s[1..]) else s
  }

  /** What `TrimStart` keeps is the rest of `s` after the leading `\s` characters. */
  lemma {:induction false} TrimStartSuffix(s: string)
    ensures TrimStart(s) == s[|s| - |TrimStart(s)|..]
    decreases |s|
  {
    if s != [] && IsSpace(s[0]) {
      TrimStartSuffix(s[1..]);
      assert s[1..][|s| - 1 - |TrimStart(s)|..] == s[|s| - |TrimStart(s)|..];
    }
  }

  /** Trailing `\s` characters removed. */
  function TrimEnd(s: string): (r: string)
    ensures |r| <= |s| && r == s[..|r|]
    ensures r == [] || !IsSpace(r[|r| - 1])
    ensures forall k :: |r| <= k < |s| ==> IsSpace(s[k])
  {
    if s != [] && IsSpace(s[|s| - 1]) then TrimEnd(s[..|s| - 1]) else s
  }

  /** `s.trim()`. */
  function Trim(s: string): (r: string)
    ensures r == [] || (!IsSpace(r[0]) && !IsSpace(r[|r| - 1]))
  {
    TrimEnd(TrimStart(s))
  }

  /** A string with no `\s` at either end is its own trim. */
  lemma {:induction false} TrimOfTrimmed(s: string)
    requires s == [] || (!IsSpace(s[0]) && !IsSpace(s[|s| - 1]))
    ensures Trim(s) == s
  {
  }

  // ---------------------------------------------------------------------------
  // \s removal

  /** `s.replace(/(\s|\t|\n)+/g, '')`: every `\s` character removed. */
  function RemoveSpaces(s: string): (r: string)
    ensures |r| <= |s|
    ensures forall k :: 0 <= k < |r| ==> !IsSpace(r[k])
  {
    if s == [] then []
    else if IsSpace(s[0]) then RemoveSpaces(s[1..])
    else [s[0]] + RemoveSpaces(s[1..])
  }

  lemma {:induction false} RemoveSpacesAppend(a: string, b: string)
    ensures RemoveSpaces(a + b) == RemoveSpaces(a) + RemoveSpaces(b)
    decreases |a|
  {
    if a != [] {
      assert (a + b)[1..] == a[1..] + b;
      RemoveSpacesAppend(a[1..], b);
    } else {
      assert a + b == b;
    }
  }

  lemma {:induction false} RemoveSpacesNoop(s: string)
    requires forall k :: 0 <= k < |s| ==> !IsSpace(s[k])
    ensures RemoveSpaces(s) == s
    decreases |s|
  {
    if s != [] {
      RemoveSpacesNoop(s[1..]);
      assert s == [s[0]] + s[1..];
    }
  }

  // ---------------------------------------------------------------------------
  // toLowerCase (ASCII letters)

  function LowerChar(c: char): (r: char)
    ensures 'A' <= c <= 'Z' ==> r as int == c as int + 32
    ensures !('A' <= c <= 'Z') ==> r == c
  {
    if 'A' <= c <= 'Z' then (c as int + 32) as char else c
  }

  /** `s.toLowerCase()`, restricted to the ASCII letters. */
  function Lower(s: string): (r: string)
    ensures |r| == |s| && forall k :: 0 <= k < |s| ==> r[k] == LowerChar(s[k])
  {
    seq(|s|, k requires 0 <= k < |s| => LowerChar(s[k]))
  }

  // ---------------------------------------------------------------------------
  // Numerals

  /** The value of `c` as a digit in radix 36 (`0-9`, `a-z`, `A-Z`), if it is one. */
  function DigitOf(c: char): (r: Option<nat>)
    ensures r.Some? ==> r.value < 36
    ensures r.Some? && r.value < 10 <==> '0' <= c <= '9'
  {
    if '0' <= c <= '9' then Some(c as int - '0' as int)
    else if 'a' <= c <= 'z' then Some(c as int - 'a' as int + 10)
    else if 'A' <= c <= 'Z' then Some(c as int - 'A' as int + 10)
    else None
  }

  /** The digit of value `v` in radix 36, letters in lower case. */
  function DigitChar(v: nat): char
    requires v < 36
  {
    if v < 10 then ('0' as int + v) as char else ('a' as int + v - 10) as char
  }

  /**
   * `DigitOf` reads back the digit `DigitChar` writes, and a character it reads
   * is the digit of its value, up to letter case.
   */
  lemma {:induction false} DigitOfChar(v: nat, c: char)
    requires v < 36
    ensures DigitOf(DigitChar(v)) == Some(v)
    ensures DigitOf(c).Some? ==> DigitChar(DigitOf(c).value) == LowerChar(c)
  {
  }

  predicate IsRadixDigit(c: char, radix: nat) {
    DigitOf(c).Some? && DigitOf(c).value < radix
  }

  predicate IsDigit(c: char) {
    '0' <= c <= '9'
  }

  predicate AllRadixDigits(s: string, radix: nat) {
    forall k :: 0 <= k < |s| ==> IsRadixDigit(s[k], radix)
  }

  /** The length of the longest prefix of `s` made of radix-`radix` digits. */
  function DigitSpan(s: string, radix: nat): (n: nat)
    ensures n <= |s| && AllRadixDigits(s[..n], radix)
    ensures n < |s| ==> !IsRadixDigit(s[n], radix)
  {
    if s != [] && IsRadixDigit(s[0], radix) then
      var n := 1 + DigitSpan(s[1..], radix);
      assert s[..n] == [s[0]] + s[1..][..n - 1];
      n
    else 0
  }

  /** The number a run of radix-`radix` digits denotes. */
  function DigitsValue(s: string, radix: nat): nat
    requires AllRadixDigits(s, radix)
  {
    if s == [] then 0
    else DigitsValue(s[..|s| - 1], radix) * radix + DigitOf(s[|s| - 1]).value
  }

  /** The decimal numeral of `n`, without leading zeros: `String(n)`. */
  function NatToDigits(n: nat): (s: string)
    ensures s != [] && AllRadixDigits(s, 10)
    ensures forall k :: 0 <= k < |s| ==> IsDigit(s[k])
  {
    var last := ['0' + (n % 10) as char];
    assert DigitOf(last[0]) == Some(n % 10);
    if n < 10 then last else NatToDigits(n / 10) + last
  }

  lemma {:induction false} NatToDigitsValue(n: nat)
    ensures DigitsValue(NatToDigits(n), 10) == n
  {
    var s := NatToDigits(n);
    if n >= 10 {
      NatToDigitsValue(n / 10);
      assert s[..|s| - 1] == NatToDigits(n / 10);
    }
  }

  /** The longest numeral of radix-`radix` digits at the start of `s`, if there is one. */
  function ReadNumeral(s: string, radix: nat): (r: Option<nat>)
  {
    var n := DigitSpan(s, radix);
    if n == 0 then None else Some(DigitsValue(s[..n], radix))
  }

  predicate HasHexPrefix(u: string) {
    |u| >= 2 && u[0] == '0' && (u[1] == 'x' || u[1] == 'X')
  }

  /** The digits after an optional sign: hexadecimal after `0x` or `0X`, decimal otherwise. */
  function ParseUnsigned(u: string): Option<nat>
  {
    if HasHexPrefix(u) then ReadNumeral(u[2..], 16) else ReadNumeral(u, 10)
  }

  /** `parseInt(s)` with no radix; `None` stands for `NaN`. */
  function ParseInt(s: string): (r: Option<int>)
    ensures TrimStart(s) == [] ==> r.None?
    ensures r.Some? && r.value < 0 ==> TrimStart(s)[0] == '-'
    ensures r.Some? && TrimStart(s)[0] == '-' ==> r.value <= 0
  {
    var t := TrimStart(s);
    var negative := t != [] && t[0] == '-';
    var u := if t != [] && (t[0] == '-' || t[0] == '+') then t[1..] else t;
    match ParseUnsigned(u)
    case None => None
    case Some(n) =>
      var v: int := if negative then -(n as int) else n;
      Some(v)
  }

  /** A string that starts with a decimal digit and is not a `0x` hex literal is read as decimal. */
  lemma {:induction false} ParseIntOfDecimal(s: string)
    requires s != [] && IsDigit(s[0])
    requires !HasHexPrefix(s)
    ensures ParseInt(s) == ReadNumeral(s, 10)
  {
    assert !IsSpace(s[0]);
    assert TrimStart(s) == s;
  }

  /** Only zero has a numeral that starts with `0`. */
  lemma {:induction false} NumeralLeadingDigit(n: nat)
    ensures NatToDigits(n)[0] == '0' <==> n == 0
    ensures n == 0 ==> NatToDigits(n) == "0"
  {
    if n >= 10 {
      NumeralLeadingDigit(n / 10);
      assert NatToDigits(n)[0] == NatToDigits(n / 10)[0];
    }
  }

  /** `parseInt` reads only the leading numeral: text after it that is not a digit is ignored. */
  lemma {:induction false} ParseIntOfNumeralThen(n: nat, rest: string)
    requires rest == [] || !IsRadixDigit(rest[0], 10)
    requires n != 0 || rest == [] || (rest[0] != 'x' && rest[0] != 'X')
    ensures ParseInt(NatToDigits(n) + rest) == Some(n)
  {
    var d := NatToDigits(n);
    var s := d + rest;
    assert s[0] == d[0];
    NumeralLeadingDigit(n);
    ParseIntOfDecimal(s);
    DigitSpanOfDigitsThen(d, rest, 10);
    assert s[..|d|] == d;
    NatToDigitsValue(n);
  }

  /** `parseInt(String(n)) === n` for every non-negative integer. */
  lemma {:induction false} ParseIntOfNumeral(n: nat)
    ensures ParseInt(NatToDigits(n)) == Some(n)
  {
    ParseIntOfNumeralThen(n, []);
    assert NatToDigits(n) + [] == NatToDigits(n);
  }

  lemma {:induction false} DigitSpanOfDigitsThen(d: string, rest: string, radix: nat)
    requires AllRadixDigits(d, radix)
    requires rest == [] || !IsRadixDigit(rest[0], radix)
    ensures DigitSpan(d + rest, radix) == |d|
    decreases |d|
  {
    if d == [] {
      assert d + rest == rest;
    } else {
      assert (d + rest)[1..] == d[1..] + rest;
      DigitSpanOfDigitsThen(d[1..], rest, radix);
    }
  }

  /** Concatenation regrouped to the right. */
  lemma {:induction false} AppendAssoc<T>(a: seq<T>, b: seq<T>, c: seq<T>)
    ensures a + b + c == a + (b + c)
  {
  }
}

=== FILE: markup.dfy ===
/**
 * What the parsers read from the markup, once the document has been loaded
 * and its selectors evaluated: texts, and elements with one attribute each.
 */
module Markup {
  import opened Wrappers
  import opened JsString

  /**
   * The first element a selector matched, with the one attribute the parser reads
   * from it (`href` or `src`). Reading an attribute of `Absent` throws, since the
   * attribute object of an empty selection is `undefined`.
   */
  datatype Element = Absent | Present(attribute: Option<string>)

  /** The element exists and carries the attribute. */
  predicate HasAttribute(e: Element) {
    e.Present? && e.attribute.Some?
  }

  /** `parseInt(href.split('=').pop() || '0')`: the number after the last `=`; `None` is `NaN`. */
  function IdOfHref(href: string): (r: Option<int>)
    ensures '=' !in href ==> r == ParseInt(OrElse(href, "0"))
    ensures href == [] ==> r == Some(0)
  {
    SplitWithout(href, '=');
    ParseIntOfNumeral(0);
    ParseInt(OrElse(Last(Split(href, "=")), "0"))
  }

  /** A link ending in `=<n>` carries the id `n`. */
  lemma {:induction false} IdOfHrefNumeral(prefix: string, n: nat)
    ensures IdOfHref(prefix + "=" + NatToDigits(n)) == Some(n)
  {
    var d := NatToDigits(n);
    assert '=' !in d by {
      forall k | 0 <= k < |d| ensures d[k] != '=' {
        assert IsDigit(d[k]);
      }
    }
    assert prefix + "=" + d == prefix + ['='] + d;
    LastPieceAfter(prefix, '=', d);
    ParseIntOfNumeral(n);
  }

  /** A link ending in a bare `=` falls back to `'0'`, the id 0. */
  lemma {:induction false} IdOfHrefEmpty(prefix: string)
    ensures IdOfHref(prefix + "=") == Some(0)
  {
    assert prefix + "=" == prefix + ['='] + [];
    LastPieceAfter(prefix, '=', []);
    NumeralLeadingDigit(0);
    ParseIntOfNumeral(0);
  }

  /** `src ? BASE_URL + src : ''`: the absolute image address, or the empty string. */
  function ImageUrl(baseUrl: string, src: Option<string>): (r: string)
    ensures r == [] <==> src.None? || src.value == []
    ensures src.Some? && src.value != [] ==>
              |r| == |baseUrl| + |src.value| && r[..|baseUrl|] == baseUrl && r[|baseUrl|..] == src.value
  {
    if src.Some? && src.value != [] then baseUrl + src.value else ""
  }
}

=== FILE: overwrites.dfy ===
/**
 * Keyed assignment in sequence, as `obj[key] = value` inside a loop or
 * `Object.assign` does it: every key assigned is present, and holds the
 * value of the last assignment to it.
 */
module Overwrites {

  /** No assignment after the `i`-th one uses the same key. */
  ghost predicate IsLastFor<K, V>(kvs: seq<(K, V)>, i: nat)
    requires i < |kvs|
  {
    forall j :: i < j < |kvs| ==> kvs[j].0 != kvs[i].0
  }

  /** `m` is what assigning the pairs of `kvs` in order, later ones overwriting earlier ones, leaves. */
  ghost predicate LastWins<K, V>(m: map<K, V>, kvs: seq<(K, V)>) {
    && m.Keys == (set i | 0 <= i < |kvs| :: kvs[i].0)
    && forall i :: 0 <= i < |kvs| && IsLastFor(kvs, i) ==> m[kvs[i].0] == kvs[i].1
  }

  lemma {:induction false} LastWinsEmpty<K, V>()
    ensures LastWins<K, V>(map[], [])
  {
  }

  /** One more assignment keeps the property. */
  lemma {:induction false} LastWinsStep<K, V>(m: map<K, V>, kvs: seq<(K, V)>, k: K, v: V)
    requires LastWins(m, kvs)
    ensures LastWins(m[k := v], kvs + [(k, v)])
  {
    var kvs' := kvs + [(k, v)];
    var m' := m[k := v];
    assert kvs'[|kvs|] == (k, v);
    forall key | key in m'
      ensures key in (set i | 0 <= i < |kvs'| :: kvs'[i].0)
    {
      if key == k {
        assert kvs'[|kvs|].0 == key;
      } else {
        var i :| 0 <= i < |kvs| && kvs[i].0 == key;
        assert kvs'[i].0 == key;
      }
    }
    forall i | 0 <= i < |kvs'| && IsLastFor(kvs', i)
      ensures m'[kvs'[i].0] == kvs'[i].1
    {
      if i < |kvs| {
        assert kvs'[i] == kvs[i];
        assert kvs'[|kvs|].0 != kvs'[i].0;
        forall j | i < j < |kvs|
          ensures kvs[j].0 != kvs[i].0
        {
          assert kvs'[j] == kvs[j];
        }
      }
    }
  }

  /** The key of every pair is present, and only those keys are. */
  lemma {:induction false} LastWinsKeys<K, V>(m: map<K, V>, kvs: seq<(K, V)>, key: K)
    requires LastWins(m, kvs)
    ensures key in m <==> exists i :: 0 <= i < |kvs| && kvs[i].0 == key
  {
  }

  /** A present key holds the value of some assignment to it. */
  lemma {:induction false} LastWinsValue<K, V>(m: map<K, V>, kvs: seq<(K, V)>, key: K)
    requires LastWins(m, kvs) && key in m
    ensures exists i :: 0 <= i < |kvs| && kvs[i] == (key, m[key])
  {
    var i :| 0 <= i < |kvs| && kvs[i].0 == key;
    var last := i;
    var j := i + 1;
    while j < |kvs|
      invariant i <= last < j <= |kvs|
      invariant kvs[last].0 == key
      invariant forall t :: last < t < j ==> kvs[t].0 != key
    {
      if kvs[j].0 == key {
        last := j;
      }
      j := j + 1;
    }
    assert IsLastFor(kvs, last);
  }
}

=== FILE: queries.dfy ===
/**
 * The search-query encoder: a query's thirteen search parameters, with the
 * defaults that stand for missing or empty fields, serialized as a form body.
 */
module Queries {
  import opened Wrappers
  import opened JsString
  import opened Types
  import opened FormEncoding

  /** The search query; every field may be left out. */
  datatype Query = Query(
    search: Option<string>,
    page: Option<int>,
    lengthType: Option<string>,
    lengthMin: Option<string>,
    lengthMax: Option<string>,
    platform: Option<string>,
    sortBy: Option<string>,
    sortOrder: Option<SortOrder>,
    perspective: Option<string>,
    flow: Option<string>,
    genre: Option<string>,
    modifier: Option<string>,
    randomize: Option<bool>)

  /** The query with no field given. */
  const EMPTY_QUERY := Query(None, None, None, None, None, None, None, None, None, None, None, None, None)

  /** `field || fallback` for an optional string field: missing and empty both fall back. */
  function Field(field: Option<string>, fallback: string): (v: string)
    ensures field.Some? && field.value != [] ==> v == field.value
    ensures field.None? || field.value == [] ==> v == fallback
  {
    OrElse(if field.Some? then field.value else "", fallback)
  }

  /** `${sortOrder || SortOrder.Descending}`: the direction's number as text, `Descending`'s 0 being falsy. */
  function SortDirection(order: Option<SortOrder>): (r: string)
    ensures r == (if order == Some(Ascending) then "1" else "0")
  {
    NumeralLeadingDigit(0);
    assert NatToDigits(1) == "1";
    var n := if order.Some? && order.value.Value() != 0 then order.value.Value() else Descending.Value();
    NatToDigits(n)
  }

  /** The parameter names, in the order they are appended. */
  const PARAMETER_NAMES: seq<string> :=
    ["queryString", "t", "sorthead", "sortd", "plat", "length_type", "length_min", "length_max",
     "v", "f", "g", "detail", "randomize"]

  /** The name-value pairs `parseQuery` appends, in order. */
  function QueryParams(q: Query): (pairs: seq<(string, string)>)
    ensures |pairs| == |PARAMETER_NAMES|
    ensures forall i :: 0 <= i < |PARAMETER_NAMES| ==> pairs[i].0 == PARAMETER_NAMES[i]
  {
    [ ("queryString", Field(q.search, "")),
      ("t", "games"),
      ("sorthead", Field(q.sortBy, SORT_BY_MOST_POPULAR)),
      ("sortd", SortDirection(q.sortOrder)),
      ("plat", Field(q.platform, PLATFORM_ALL)),
      ("length_type", Field(q.lengthType, LENGTH_TYPE_MAIN)),
      ("length_min", Field(q.lengthMin, "")),
      ("length_max", Field(q.lengthMax, "")),
      ("v", Field(q.perspective, PERSPECTIVE_ALL)),
      ("f", Field(q.flow, FLOW_ALL)),
      ("g", Field(q.genre, GENRE_ALL)),
      ("detail", Field(q.modifier, MODIFIER_NONE)),
      ("randomize", if q.randomize == Some(true) then "1" else "0") ]
  }

  /** Thirteen appends to an empty list leave the thirteen values in append order. */
  lemma {:induction false} AppendedInOrder<T>(a: T, b: T, c: T, d: T, e: T, f: T, g: T, h: T, i: T, j: T, k: T, l: T, m: T)
    ensures [] + [a] + [b] + [c] + [d] + [e] + [f] + [g] + [h] + [i] + [j] + [k] + [l] + [m]
         == [a, b, c, d, e, f, g, h, i, j, k, l, m]
  {
  }

  /**
   * `parseQuery`: the parameters appended one by one to an empty
   * `URLSearchParams`, which holds them as a list of name-value pairs, and that
   * list in form encoding.
   */
  method ParseQuery(q: Query) returns (s: string)
    ensures s == Serialize(QueryParams(q))
  {
    var params: seq<(string, string)> := [];
    params := params + [("queryString", Field(q.search, ""))];
    params := params + [("t", "games")];
    params := params + [("sorthead", Field(q.sortBy, SORT_BY_MOST_POPULAR))];
    params := params + [("sortd", SortDirection(q.sortOrder))];
    params := params + [("plat", Field(q.platform, PLATFORM_ALL))];
    params := params + [("length_type", Field(q.lengthType, LENGTH_TYPE_MAIN))];
    params := params + [("length_min", Field(q.lengthMin, ""))];
    params := params + [("length_max", Field(q.lengthMax, ""))];
    params := params + [("v", Field(q.perspective, PERSPECTIVE_ALL))];
    params := params + [("f", Field(q.flow, FLOW_ALL))];
    params := params + [("g", Field(q.genre, GENRE_ALL))];
    params := params + [("detail", Field(q.modifier, MODIFIER_NONE))];
    params := params + [("randomize", if q.randomize == Some(true) then "1" else "0")];
    AppendedInOrder(("queryString", Field(q.search, "")),
                    ("t", "games"),
                    ("sorthead", Field(q.sortBy, SORT_BY_MOST_POPULAR)),
                    ("sortd", SortDirection(q.sortOrder)),
                    ("plat", Field(q.platform, PLATFORM_ALL)),
                    ("length_type", Field(q.lengthType, LENGTH_TYPE_MAIN)),
                    ("length_min", Field(q.lengthMin, "")),
                    ("length_max", Field(q.lengthMax, "")),
                    ("v", Field(q.perspective, PERSPECTIVE_ALL)),
                    ("f", Field(q.flow, FLOW_ALL)),
                    ("g", Field(q.genre, GENRE_ALL)),
                    ("detail", Field(q.modifier, MODIFIER_NONE)),
                    ("randomize", if q.randomize == Some(true) then "1" else "0"));
    assert params == QueryParams(q);
    s := Serialize(params);
  }

  /**
   * The encoded query splits on `&` into thirteen `name=value` pieces, the
   * names in their fixed order and unchanged by encoding, and it parses back
   * into the pairs appended.
   */
  lemma {:induction false} QueryPieces(q: Query)
    ensures var pieces := Split(Serialize(QueryParams(q)), "&");
      && |pieces| == 13
      && forall i :: 0 <= i < 13 ==> pieces[i] == PARAMETER_NAMES[i] + "=" + Encode(QueryParams(q)[i].1)
    ensures Parse(Serialize(QueryParams(q))) == Some(QueryParams(q))
  {
    var pairs := QueryParams(q);
    SerializedPieces(pairs);
    forall i | 0 <= i < 13
      ensures Encode(PARAMETER_NAMES[i]) == PARAMETER_NAMES[i]
    {
      ParameterNameUnreserved(PARAMETER_NAMES[i]);
    }
    ParseSerialize(pairs);
  }

  /** The parameter names are spelled with unreserved characters only. */
  lemma {:induction false} ParameterNameUnreserved(name: string)
    requires name in PARAMETER_NAMES
    ensures Encode(name) == name
  {
    EncodeUnreserved(name);
  }

  /** The page number plays no part in the parameters. */
  lemma {:induction false} PageIgnored(q: Query, page: Option<int>)
    ensures QueryParams(q.(page := page)) == QueryParams(q)
  {
  }

  /**
   * The search text is sent as given (or empty), `sortd` is `1` exactly for an
   * ascending order and `0` otherwise, and `randomize` is `1` exactly when it was set.
   */
  lemma {:induction false} QueryParamsMeaning(q: Query)
    ensures QueryParams(q)[0].1 == (if q.search.Some? then q.search.value else "")
    ensures QueryParams(q)[1].1 == "games"
    ensures QueryParams(q)[3].1 == (if q.sortOrder == Some(Ascending) then "1" else "0")
    ensures QueryParams(q)[12].1 == (if q.randomize == Some(true) then "1" else "0")
  {
  }

  /** The pairs of the empty query. */
  const EMPTY_QUERY_PARAMS: seq<(string, string)> :=
    [ ("queryString", ""), ("t", "games"), ("sorthead", "popular"), ("sortd", "0"), ("plat", ""),
      ("length_type", "main"), ("length_min", ""), ("length_max", ""), ("v", ""), ("f", ""),
      ("g", ""), ("detail", ""), ("randomize", "0") ]

  /** The empty query falls back on every default. */
  lemma {:induction false} EmptyQueryParams()
    ensures QueryParams(EMPTY_QUERY) == EMPTY_QUERY_PARAMS
  {
  }

  /** Words of unreserved characters separated by a space are sent joined by `+`. */
  lemma {:induction false} SpaceAsPlus(a: string, b: string)
    requires forall k :: 0 <= k < |a| ==> IsUnreserved(a[k])
    requires forall k :: 0 <= k < |b| ==> IsUnreserved(b[k])
    ensures Encode(a + " " + b) == a + "+" + b
  {
    EncodeUnreserved(a);
    EncodeUnreserved(b);
    EncodeAppend(a + " ", b);
    EncodeAppend(a, " ");
    assert Encode(" ") == "+" by {
      assert " "[1..] == [];
    }
  }
}

=== FILE: results.dfy ===
/**
 * The search-results reader: the announced total and one summary record per
 * list entry, with only the play-mode durations that were reported.
 */
module Results {
  import opened Wrappers
  import opened JsString
  import opened Types
  import opened Markup
  import opened Durations
  import opened Selections

  /** One `ul li` entry of the results page, as its selectors read it. */
  datatype ResultEntry = ResultEntry(
    titleLink: Element,    // first `.search_list_details h3 a`, with its `href`
    titleText: string,     // the text of those links
    image: Element,        // first `.search_list_image img`, with its `src`
    detailsText: string)   // the text of `.search_list_details`

  /** The results page: the text of `.global_padding > h3`, and the list entries in page order. */
  datatype ResultsPage = ResultsPage(heading: string, entries: seq<ResultEntry>)

  /** `{ total, data }`. */
  datatype SearchResults = SearchResults(total: nat, data: seq<GameResult>)

  /** Why reading an entry threw: the entry has no title link `href`, or no thumbnail image. */
  datatype ResultsError = TitleLinkMissing(entry: nat) | ImageMissing(entry: nat)

  /** The entry can be read without dereferencing `undefined`. */
  predicate EntryReadable(e: ResultEntry) {
    HasAttribute(e.titleLink) && e.image.Present?
  }

  /** `error` names the first entry that cannot be read, and what it lacks. */
  predicate FirstUnreadable(entries: seq<ResultEntry>, error: ResultsError) {
    && error.entry < |entries|
    && !EntryReadable(entries[error.entry])
    && (forall j :: 0 <= j < error.entry ==> EntryReadable(entries[j]))
    && (error.TitleLinkMissing? <==> !HasAttribute(entries[error.entry].titleLink))
  }

  /** The optional duration `d` reports `hours`: present exactly when `hours` is not zero, and equal to it. */
  predicate Reports(d: Option<real>, hours: real) {
    (d.Some? <==> hours != 0.0) && (d.Some? ==> d.value == hours)
  }

  /** A duration that is kept only when it is not zero. */
  function Reported(hours: real): (d: Option<real>)
    ensures Reports(d, hours)
  {
    if hours == 0.0 then None else Some(hours)
  }

  /** Every duration the record carries is positive. */
  predicate PositiveTimes(g: GameResult) {
    && (g.gameplayMain.Some? ==> g.gameplayMain.value > 0.0)
    && (g.gameplayExtended.Some? ==> g.gameplayExtended.value > 0.0)
    && (g.gameplayCompletionist.Some? ==> g.gameplayCompletionist.value > 0.0)
    && (g.gameplayMulti.Some? ==> g.gameplayMulti.value > 0.0)
  }

  /** `g` is the summary record of entry `e`. */
  predicate Describes(g: GameResult, e: ResultEntry, baseUrl: string)
    requires EntryReadable(e)
  {
    && g.id == IdOfHref(e.titleLink.attribute.value)
    && g.name == Trim(e.titleText)
    && g.imageUrl == ImageUrl(baseUrl, e.image.attribute)
    && Reports(g.gameplayMain, ParseRelativeTimes(Main, e.detailsText))
    && Reports(g.gameplayExtended, ParseRelativeTimes(Extended, e.detailsText))
    && Reports(g.gameplayCompletionist, ParseRelativeTimes(Completionist, e.detailsText))
    && Reports(g.gameplayMulti, ParseRelativeTimes(Multi, e.detailsText))
  }

  /**
   * The callback applied to the entry at `index`: reading the title link's
   * `href` of an entry without one throws, and so does reading the thumbnail's
   * `src` of an entry without a thumbnail (the link is read first); otherwise
   * the entry's summary record.
   */
  function ReadEntry(index: nat, e: ResultEntry, baseUrl: string): (r: Result<GameResult, ResultsError>)
    ensures r.Success? <==> EntryReadable(e)
    ensures r.Failure? ==> r.error.entry == index && (r.error.TitleLinkMissing? <==> !HasAttribute(e.titleLink))
    ensures r.Success? ==> Describes(r.value, e, baseUrl) && PositiveTimes(r.value)
  {
    if !HasAttribute(e.titleLink) then Failure(TitleLinkMissing(index))
    else if e.image.Absent? then Failure(ImageMissing(index))
    else
      var times := e.detailsText;
      Success(GameResult(IdOfHref(e.titleLink.attribute.value), Trim(e.titleText),
                         ImageUrl(baseUrl, e.image.attribute),
                         Reported(ParseRelativeTimes(Main, times)),
                         Reported(ParseRelativeTimes(Extended, times)),
                         Reported(ParseRelativeTimes(Completionist, times)),
                         Reported(ParseRelativeTimes(Multi, times))))
  }

  /**
   * `parseGameResults`: no heading text means no results, even for an empty page;
   * otherwise the announced total (0 when not announced) and one record per entry,
   * in page order, or the failure of the first entry that cannot be read.
   */
  method ParseGameResults(page: ResultsPage, baseUrl: string) returns (r: Result<SearchResults, ResultsError>)
    ensures page.heading == [] ==> r == Success(SearchResults(0, []))
    ensures page.heading != [] ==>
      (r.Success? <==> forall i :: 0 <= i < |page.entries| ==> EntryReadable(page.entries[i]))
    ensures r.Failure? ==> FirstUnreadable(page.entries, r.error)
    ensures r.Success? && page.heading != [] ==>
      && r.value.total == ParseTotalResults(page.heading)
      && |r.value.data| == |page.entries|
      && forall i :: 0 <= i < |page.entries| ==>
           Describes(r.value.data[i], page.entries[i], baseUrl) && PositiveTimes(r.value.data[i])
  {
    if page.heading == [] {
      return Success(SearchResults(0, []));
    }
    var total := ParseTotalResults(page.heading);
    var mapped := CollectEach(page.entries, (i: nat, e: ResultEntry) => ReadEntry(i, e, baseUrl));
    match mapped
    case Failure(error) => r := Failure(error);
    case Success(data) => r := Success(SearchResults(total, data));
  }
}

=== FILE: selections.dfy ===
/**
 * Iterating over a selection of the loaded document with `.each(callback)`:
 * the callback is called on the elements in document order, with the index
 * and the element, and a callback that throws ends the iteration and the
 * parse. Two shapes of callback occur: one that pushes a value onto an array,
 * and one that assigns a value to a key of an object.
 */
module Selections {
  import opened Wrappers
  import opened Overwrites

  /** The callback throws on none of the elements before `k`. */
  predicate NoThrowBefore<A, B, E>(xs: seq<A>, f: (nat, A) -> Result<B, E>, k: nat)
    requires k <= |xs|
  {
    forall j :: 0 <= j < k ==> f(j, xs[j]).Success?
  }

  /** `error` is what the callback threw on the first element it threw on. */
  ghost predicate FirstThrow<A, B, E>(xs: seq<A>, f: (nat, A) -> Result<B, E>, error: E) {
    exists k :: 0 <= k < |xs| && f(k, xs[k]) == Failure(error) && NoThrowBefore(xs, f, k)
  }

  /**
   * `.each(function () { data.push(...) })`: the pushed values in element order,
   * or what the first throwing call threw, after which no element is visited.
   */
  method CollectEach<A, B, E>(xs: seq<A>, f: (nat, A) -> Result<B, E>) returns (r: Result<seq<B>, E>)
    ensures r.Success? <==> NoThrowBefore(xs, f, |xs|)
    ensures r.Success? ==> |r.value| == |xs| && forall i :: 0 <= i < |xs| ==> f(i, xs[i]) == Success(r.value[i])
    ensures r.Failure? ==> FirstThrow(xs, f, r.error)
  {
    var values: seq<B> := [];
    var i := 0;
    while i < |xs|
      invariant 0 <= i <= |xs|
      invariant |values| == i
      invariant forall k :: 0 <= k < i ==> f(k, xs[k]) == Success(values[k])
    {
      var v := f(i, xs[i]);
      if v.Failure? {
        return Failure(v.error);
      }
      values := values + [v.value];
      i := i + 1;
    }
    r := Success(values);
  }

  /** The key-value pairs the callback produces on the elements, in order. */
  function Assignments<A, K, V, E>(xs: seq<A>, f: (nat, A) -> Result<(K, V), E>): (kvs: seq<(K, V)>)
    requires NoThrowBefore(xs, f, |xs|)
    ensures |kvs| == |xs| && forall i :: 0 <= i < |xs| ==> f(i, xs[i]) == Success(kvs[i])
  {
    seq(|xs|, i requires 0 <= i < |xs| => f(i, xs[i]).value)
  }

  /**
   * `.each(function () { obj[key] = value })`: the object the assignments leave,
   * each key holding the value of the last element that assigned it, or what the
   * first throwing call threw.
   */
  method AssignEach<A, K(==), V, E>(xs: seq<A>, f: (nat, A) -> Result<(K, V), E>) returns (r: Result<map<K, V>, E>)
    ensures r.Success? <==> NoThrowBefore(xs, f, |xs|)
    ensures r.Success? ==> LastWins(r.value, Assignments(xs, f))
    ensures r.Failure? ==> FirstThrow(xs, f, r.error)
  {
    var obj: map<K, V> := map[];
    ghost var done: seq<(K, V)> := [];
    LastWinsEmpty<K, V>();
    var i := 0;
    while i < |xs|
      invariant 0 <= i <= |xs|
      invariant NoThrowBefore(xs, f, i)
      invariant |done| == i && forall k :: 0 <= k < i ==> f(k, xs[k]) == Success(done[k])
      invariant LastWins(obj, done)
    {
      var v := f(i, xs[i]);
      if v.Failure? {
        return Failure(v.error);
      }
      LastWinsStep(obj, done, v.value.0, v.value.1);
      obj := obj[v.value.0 := v.value.1];
      done := done + [v.value];
      i := i + 1;
    }
    assert done == Assignments(xs, f);
    r := Success(obj);
  }
}

=== FILE: tables.dfy ===
/**
 * The table interpreter: a gameplay-time table's name chooses a record key and
 * a field list, and every body row is zipped with that list position by
 * position into one record.
 */
module Tables {
  import opened Wrappers
  import opened Types

  /** The cell text that means "no data"; such a cell leaves its field out. */
  const PLACEHOLDER := "--"

  /** The six table names the interpreter recognises. */
  const TABLE_NAMES: seq<string> :=
    ["Single-Player", "Multi-Player", "Additional Content", "Main Game", "Speedrun", "Platform"]

  /** The key and field list chosen by a table name; any other name gives `"unknown"` and no fields. */
  function Schema(table: string): (r: (string, seq<string>))
    ensures r.0 == "unknown" <==> table !in TABLE_NAMES
    ensures r.1 == [] <==> r.0 == "unknown"
  {
    if table == "Single-Player" then ("single", SINGLE_PLAYER_FIELDS)
    else if table == "Multi-Player" then ("multi", MULTI_PLAYER_FIELDS)
    else if table == "Additional Content" then ("dlc", RELATED_CONTENT_FIELDS)
    else if table == "Main Game" then ("mainGame", RELATED_CONTENT_FIELDS)
    else if table == "Speedrun" then ("speedrun", SPEEDRUN_FIELDS)
    else if table == "Platform" then ("platforms", PLATFORM_FIELDS)
    else ("unknown", [])
  }

  function TableKey(table: string): string {
    Schema(table).0
  }

  function TableFields(table: string): seq<string> {
    Schema(table).1
  }

  /**
   * The recognised names map one-to-one onto the six declared table kinds,
   * Additional Content and Main Game sharing a field list; every other name
   * gives the key "unknown" with no fields. No field list repeats a name, each
   * has six or seven fields with `polled` second, and each starts with the
   * field naming the row.
   */
  lemma {:induction false} SchemaKinds(table: string)
    ensures TableKey(table) in GAMEPLAY_KINDS <==> table in TABLE_NAMES
    ensures TableKey(table) == "unknown" <==> table !in TABLE_NAMES
    ensures TableFields(table) == [] <==> table !in TABLE_NAMES
    ensures TableKey(table) == "single" <==> table == "Single-Player"
    ensures TableKey(table) == "platforms" <==> table == "Platform"
    ensures forall other :: other in TABLE_NAMES && table in TABLE_NAMES && TableKey(other) == TableKey(table) ==> other == table
    ensures Distinct(TableFields(table))
    ensures TableFields("Additional Content") == TableFields("Main Game")
    ensures table in TABLE_NAMES ==>
      && 6 <= |TableFields(table)| <= 7
      && TableFields(table)[1] == "polled"
      && TableFields(table)[0] == (if TableKey(table) == "dlc" || TableKey(table) == "mainGame" then "name"
                                   else if TableKey(table) == "platforms" then "platform"
                                   else "type")
  {
    FieldListsDistinct();
  }

  /** The cell at `j`, or `undefined` past the end of the row. */
  function Cell(row: seq<string>, j: nat): Option<string> {
    if j < |row| then Some(row[j]) else None
  }

  /** Whether the field at `j` is assigned: `row[j] !== '--'`, which holds past the end of the row too. */
  predicate Assigned(row: seq<string>, j: nat) {
    j >= |row| || row[j] != PLACEHOLDER
  }

  /** The record that assigning the fields of `fields` in order, from the cells of `row`, builds. */
  function ZipRow(fields: seq<string>, row: seq<string>): Row
    decreases |fields|
  {
    if fields == [] then map[]
    else
      var j := |fields| - 1;
      var earlier := ZipRow(fields[..j], row);
      if Assigned(row, j) then earlier[fields[j] := Cell(row, j)] else earlier
  }

  /**
   * With distinct field names, the record holds exactly the fields whose cell
   * is not the placeholder, each bound to its own cell (`undefined` past the end
   * of a short row); cells past the end of the field list are ignored.
   */
  lemma {:induction false} ZipRowMeaning(fields: seq<string>, row: seq<string>)
    requires Distinct(fields)
    ensures forall f :: f in ZipRow(fields, row) ==> f in fields
    ensures forall j :: 0 <= j < |fields| ==> (fields[j] in ZipRow(fields, row) <==> Assigned(row, j))
    ensures forall j :: 0 <= j < |fields| && Assigned(row, j) ==> ZipRow(fields, row)[fields[j]] == Cell(row, j)
    decreases |fields|
  {
    if fields != [] {
      var j := |fields| - 1;
      var prefix := fields[..j];
      assert Distinct(prefix);
      ZipRowMeaning(prefix, row);
      var earlier := ZipRow(prefix, row);
      var record := ZipRow(fields, row);
      assert record == if Assigned(row, j) then earlier[fields[j] := Cell(row, j)] else earlier;
      forall f | f in record
        ensures f in fields
      {
        if f != fields[j] {
          assert f in earlier;
        }
      }
      forall i | 0 <= i < j
        ensures fields[i] in record <==> Assigned(row, i)
        ensures Assigned(row, i) ==> record[fields[i]] == Cell(row, i)
      {
        assert fields[i] == prefix[i] && fields[i] != fields[j];
      }
    }
  }

  /** The rows' records, in row order. */
  function Records(fields: seq<string>, rows: seq<seq<string>>): (records: seq<Row>)
    ensures |records| == |rows|
  {
    seq(|rows|, i requires 0 <= i < |rows| => ZipRow(fields, rows[i]))
  }

  /**
   * `parseTableTimes`: a one-key map from the table's kind to one record per
   * row, in row order; a field is bound to its cell unless that cell is the
   * placeholder, fields past the end of a short row hold `undefined`, cells past
   * the end of the field list are ignored, and an unrecognised table gives
   * "unknown" with an empty record per row.
   */
  method ParseTableTimes(table: string, rows: seq<seq<string>>) returns (r: map<string, seq<Row>>)
    ensures r == map[TableKey(table) := Records(TableFields(table), rows)]
    ensures var fields := TableFields(table);
      forall i, j :: 0 <= i < |rows| && 0 <= j < |fields| ==>
        && (fields[j] in r[TableKey(table)][i] <==> Assigned(rows[i], j))
        && (Assigned(rows[i], j) ==> r[TableKey(table)][i][fields[j]] == Cell(rows[i], j))
    ensures forall i, f :: 0 <= i < |rows| && f in r[TableKey(table)][i] ==> f in TableFields(table)
  {
    var name := TableKey(table);
    var fields := TableFields(table);
    var values: seq<Row> := [];
    var i := 0;
    while i < |rows|
      invariant 0 <= i <= |rows|
      invariant |values| == i
      invariant forall k :: 0 <= k < i ==> values[k] == ZipRow(fields, rows[k])
    {
      var row := rows[i];
      var gameplay: Row := map[];
      var j := 0;
      while j < |fields|
        invariant 0 <= j <= |fields|
        invariant gameplay == ZipRow(fields[..j], row)
      {
        assert fields[..j + 1][..j] == fields[..j];
        if j >= |row| || row[j] != PLACEHOLDER {
          gameplay := gameplay[fields[j] := Cell(row, j)];
        }
        j := j + 1;
      }
      assert fields[..j] == fields;
      values := values + [gameplay];
      i := i + 1;
    }
    assert values == Records(fields, rows);
    r := map[name := values];
    SchemaKinds(table);
    forall k | 0 <= k < |rows| {
      ZipRowMeaning(fields, rows[k]);
    }
  }
}

=== FILE: types.dfy ===
/**
 * The records the parsers produce, the field lists that give gameplay-time
 * tables their column names, and the default values of the query enumerations.
 */
module Types {
  import opened Wrappers

  // ---------------------------------------------------------------------------
  // Records

  /**
   * One search hit. `id` is `None` where `parseInt` gives `NaN`; each of the four
   * play-mode durations (in hours) is present only when it was reported.
   */
  datatype GameResult = GameResult(
    id: Option<int>,
    name: string,
    imageUrl: string,
    gameplayMain: Option<real>,
    gameplayExtended: Option<real>,
    gameplayCompletionist: Option<real>,
    gameplayMulti: Option<real>)

  /** A stats entry: the raw value text, or a ratio read from a percentage (`None` for `NaN`). */
  datatype StatValue = Text(text: string) | Ratio(ratio: Option<real>)

  /**
   * One table row: field name to cell text. A field that is present but holds
   * `None` is a property assigned `undefined` (a row shorter than its field list).
   */
  type Row = map<string, Option<string>>

  /** The detail record, with the properties the parser actually assigns. */
  datatype GameDetail = GameDetail(
    id: Option<int>,
    name: string,
    description: string,
    imageUrl: string,
    stats: map<string, StatValue>,
    platforms: Option<seq<string>>,
    genres: Option<seq<string>>,
    developers: Option<seq<string>>,
    publisher: Option<string>,
    releaseDates: map<string, string>,
    gameplays: map<string, seq<Row>>)

  /** The table kinds the detail record declares under `gameplays`. */
  const GAMEPLAY_KINDS: set<string> := {"single", "multi", "dlc", "mainGame", "speedrun", "platforms"}

  // ---------------------------------------------------------------------------
  // Field lists

  const SINGLE_PLAYER_FIELDS: seq<string> := ["type", "polled", "average", "median", "rushed", "leisure"]
  const MULTI_PLAYER_FIELDS: seq<string> := ["type", "polled", "average", "median", "least", "most"]
  const RELATED_CONTENT_FIELDS: seq<string> :=
    ["name", "polled", "rated", "main", "extended", "completionist", "all"]
  const SPEEDRUN_FIELDS: seq<string> := ["type", "polled", "average", "median", "fastest", "slowest"]
  const PLATFORM_FIELDS: seq<string> :=
    ["platform", "polled", "main", "extended", "completionist", "fastest", "longest"]

  predicate Distinct(fields: seq<string>) {
    forall i, j :: 0 <= i < j < |fields| ==> fields[i] != fields[j]
  }

  /** No field list names a field twice, so zipping a row never assigns one field twice. */
  lemma {:induction false} FieldListsDistinct()
    ensures Distinct(SINGLE_PLAYER_FIELDS) && Distinct(MULTI_PLAYER_FIELDS)
    ensures Distinct(RELATED_CONTENT_FIELDS) && Distinct(SPEEDRUN_FIELDS) && Distinct(PLATFORM_FIELDS)
  {
  }

  // ---------------------------------------------------------------------------
  // Query enumerations: only the members the encoder falls back on

  const LENGTH_TYPE_MAIN := "main"
  const SORT_BY_MOST_POPULAR := "popular"
  const MODIFIER_NONE := ""
  const PERSPECTIVE_ALL := ""
  const FLOW_ALL := ""
  const GENRE_ALL := ""
  const PLATFORM_ALL := ""

  /** The numeric sort direction. */
  datatype SortOrder = Ascending | Descending {
    function Value(): (v: nat)
      ensures v == 0 <==> this == Descending
      ensures v <= 1
    {
      match this
      case Ascending => 1
      case Descending => 0
    }
  }
}

=== FILE: wrappers.dfy ===
/** Optional values and results with an error, as used throughout the model. */
module Wrappers {

  /** A value that may be missing: JavaScript's `undefined`, or `NaN` for a number. */
  datatype Option<+T> = None | Some(value: T)

  /** The outcome of a call that can throw: its value, or the reason it failed. */
  datatype Result<+R, +E> = Success(value: R) | Failure(error: E)
}
